=== FILE: README.md ===
# Chart data pipeline of the evaluation tool, in Dafny

This project models the data side of the evaluation tool's line chart
(`EvaluationTool/src/chart.js`). The pipeline turns loaded measurement files
into the series the renderer draws. It runs as four stages:

1. **Series builder**, in one of two modes.
   - *Grouped* (`groupBy` set): the selected files are grouped by their `sortBy`
     attribute. Each group and each extended field (a field, then its ` Min` and
     ` Max` variants when those flags are set) gives one series.
     - Each file contributes the point (`file[groupBy]`, mean of its samples
       rounded to 3 decimals).
     - Points sharing an x are merged by `averageDuplicates`, then sorted by x.
   - *Ungrouped*: every selected file, in loaded order, and every selected field
     give an optional Min series, an optional Max series and the primary series.
     Their x values are the 1-based sample index.
2. **Scale**: each series with a spread is rescaled on its own to 0..100,
   rounded to 2 decimals. A series whose values are all equal is kept as it is.
3. **Length equaliser**: series are cut to the length that a running fold over
   the series lengths ends with. Because the fold restarts at an empty series,
   this is not always one common length (see "Zero in the equaliser's fold"
   below). The equaliser is skipped when one file is loaded or the chart is
   grouped.
4. **Interpolate**: filler points are inserted between consecutive points, and
   the axis tick values are produced.

JavaScript numbers are exact reals here. `Math.round(v)` is `floor(v + 0.5)`.
Rounding to `1/k` is `Round(v * k) / k`. A colour is the pair
(palette index, palette variant) that the chart looks up in its material
colour table.

The modules follow the stages:

| file | module | models |
|---|---|---|
| `types.dfy` | ChartTypes | points, series, files, the selection, the renderer's props |
| `numeric.dfy` | Numeric | `Math.round`, rounding to a decimal grid, sums and means |
| `seqs.dfy` | Seqs | `findIndex`, insertion-ordered distinct keys |
| `text.dfy` | Text | `includes`, the first-occurrence `replace`, decimal rendering of positions |
| `dedup.dfy` | Dedup | `averageDuplicates` |
| `sorting.dfy` | Sorting | `_sortBy(points, d => d.x)` as a stable insertion sort |
| `selection.dfy` | Selection | the file filter and the `large` flag |
| `grouped.dfy` | Grouped | the grouped builder |
| `ungrouped.dfy` | Ungrouped | the ungrouped builder |
| `scaling.dfy` | Scaling | the scale stage |
| `equaliser.dfy` | Equaliser | the length equaliser |
| `interpolation.dfy` | Interpolation | the interpolate stage (filler and tick loop as parameters) |
| `pipeline.dfy` | Pipeline | the stages composed into the renderer's props |

Some behaviours of the code are reproduced literally.

- **Grouped Min/Max probe.** It reads `selectedFiles[0].values`. `selectedFiles`
  holds file names, so the probe always yields the truthy `[]`. Only the `min`
  and `max` flags decide whether a variant is added to the extended fields.
- **Zero in the equaliser's fold.** The fold treats a running length of 0 as
  "unset", so an empty series restarts it.
  - `Equaliser.IntendedCut` states the result directly: the shortest length
    after the last empty series, or 0 if the last series is empty.
  - `Equaliser.CutLengthIsIntended` proves the fold computes exactly that.
  - `Equaliser.EqualiseAfterLastEmpty` states the general rule. Every series is
    cut to the shortest length after the last empty one, so series before that
    point can still be cut.
  - Two worked instances: `Equaliser.EqualiseEmptyInMiddle` keeps lengths
    3, 0, 5 as they are, and `Equaliser.EqualiseCutsBeforeEmpty` turns
    lengths 5, 0, 3 into 3, 0, 3.
- **Equaliser guard.** It counts all loaded files, not the selected ones.
- **Interpolate stage x range.** The range runs from `min(0, every x)` to
  `max(0, every x)`. The update `min = x < min ? x : min` lowers the minimum
  for a negative x. `Interpolation.LowX` states that the result is at most 0
  and at most every x, and is 0 or one of the xs.

## Model

| member | source | states |
|---|---|---|
| Numeric.RoundTo | EvaluationTool/src/chart.js:107 | `Math.round(v * k) / k` lies within half a grid step of v and on the 1/k grid |
| Numeric.RoundToIdempotent | EvaluationTool/src/chart.js:109 | rounding an already rounded value to the same grid changes nothing |
| Numeric.RoundToMonotone | EvaluationTool/src/chart.js:213 | rounding to a grid never swaps the order of two values |
| Numeric.Round | EvaluationTool/src/chart.js:33-35 | `Math.round(v)` is the integer n with v - 0.5 < n <= v + 0.5, so halves round up |
| Numeric.Round3 | EvaluationTool/src/chart.js:107 | rounding to 3 decimals lands on the 1/1000 grid within 0.0005 of the value |
| Numeric.Round2 | EvaluationTool/src/chart.js:213 | rounding to 2 decimals lands on the 1/100 grid within 0.005 of the value |
| Numeric.MinOf | EvaluationTool/src/chart.js:205 | `Math.min(...ys)` is one of the values and at most every value |
| Numeric.MaxOf | EvaluationTool/src/chart.js:206 | `Math.max(...ys)` is one of the values and at least every value |
| Numeric.Average | EvaluationTool/src/chart.js:32-35 | the mean of a non-empty value list lies between its minimum and maximum |
| Numeric.SumScaledIsSumOver | EvaluationTool/src/chart.js:95-98 | adding each sample divided by the count equals the sum divided by the count |
| Numeric.SampleMean | EvaluationTool/src/chart.js:94-99 | a file's per-field mean is 0 for no samples and the true mean otherwise |
| Seqs.FindIndex | EvaluationTool/src/chart.js:137-139 | `findIndex` is -1 exactly when the value is absent, else the first position holding it |
| Seqs.Distinct | EvaluationTool/src/chart.js:84 | the insertion-ordered key list is no longer than its input and starts with the input's first element |
| Seqs.DistinctMembers | EvaluationTool/src/chart.js:84 | the insertion-ordered keys are exactly the values that occur |
| Seqs.DistinctUnique | EvaluationTool/src/chart.js:103 | the insertion-ordered keys are pairwise different |
| Seqs.DistinctFirstOccurrenceOrder | EvaluationTool/src/chart.js:84 | keys come in the order of their first occurrence |
| Text.Contains | EvaluationTool/src/chart.js:119 | `includes` holds exactly when the pattern occurs at some position |
| Text.ReplaceFirst | EvaluationTool/src/chart.js:116 | `replace` with a string pattern rewrites only the first occurrence and leaves a string without one unchanged |
| Text.StripMinMax | EvaluationTool/src/chart.js:116 | a field containing neither ` Min` nor ` Max` is its own base name |
| Text.StripMinMaxOfVariant | EvaluationTool/src/chart.js:116 | stripping ` Min` and ` Max` from a field's variant gives back the base field |
| Text.NatToStringRoundTrip | EvaluationTool/src/chart.js:152 | the rendered file position reads back as the same number |
| Text.NatToStringInjective | EvaluationTool/src/chart.js:152 | different file positions render differently |
| Dedup.FindLaterDuplicate | EvaluationTool/src/chart.js:12-14 | the search returns the first later position with the same x, or -1 exactly when no later point shares the x |
| Dedup.RemoveAt | EvaluationTool/src/chart.js:21 | filtering out one index removes that point and keeps the others in order |
| Dedup.AveragedByXXs | EvaluationTool/src/chart.js:7-39 | the reference definition keeps each distinct x once, in first-occurrence order |
| Dedup.AveragedByXYs | EvaluationTool/src/chart.js:18-36 | the reference definition carries for each x the 3-decimal mean of every y at that x |
| Dedup.AverageDuplicatesFromIsAveragedByX | EvaluationTool/src/chart.js:7-39 | the recursive remove-and-average procedure equals the reference definition from any search index |
| Dedup.AverageDuplicates | EvaluationTool/src/chart.js:7-39 | the output's x values are the input's distinct x values in first-occurrence order; no longer than the input; each y is the 3-decimal mean of every input y at its x, singletons included |
| Dedup.AverageDuplicatesKeepsDistinctXs | EvaluationTool/src/chart.js:9-28 | input without duplicate x keeps its x sequence |
| Dedup.AverageDuplicatesFixed | EvaluationTool/src/chart.js:7-39 | points whose x values are pairwise different and whose y values are already on the 3-decimal grid pass through unchanged |
| Dedup.AverageDuplicatesIdempotent | EvaluationTool/src/chart.js:7-39 | averaging twice equals averaging once |
| Dedup.AverageDuplicatesExample | EvaluationTool/src/chart.js:17-36 | (1,2),(2,4),(1,6) becomes (1,4),(2,4) |
| Sorting.SortByX | EvaluationTool/src/chart.js:110 | the sorted points are a permutation of the input, ordered by x |
| Sorting.SortByXStrict | EvaluationTool/src/chart.js:109-110 | points with pairwise different x sort into strictly increasing x |
| Selection.FilterSelected | EvaluationTool/src/chart.js:65-67 | exactly the loaded files whose name is selected are kept |
| Selection.FilterSelectedAppend | EvaluationTool/src/chart.js:65-67 | the filter keeps the loaded order |
| Grouped.ExtendedFields | EvaluationTool/src/chart.js:74-82 | the extended list holds every selected field, its ` Min` variant when `min` is set and its ` Max` variant when `max` is set, and no other entries by count |
| Grouped.ExtendedFieldsOne | EvaluationTool/src/chart.js:76-81 | one field contributes itself, then its ` Min` variant, then its ` Max` variant, each only when its flag is set |
| Grouped.ExtendedFieldsAppend | EvaluationTool/src/chart.js:75-82 | the fields are extended one after another in selection order: the list for `a + b` is the list for `a` followed by the list for `b` |
| Grouped.ExtendedFieldsOnly | EvaluationTool/src/chart.js:74-82 | every extended field is a selected field or a flagged variant of one |
| Grouped.GroupKeysAreKeys | EvaluationTool/src/chart.js:72-84 | the group keys (`GroupKeys`, the distinct `sortBy` renderings) never repeat, include every filtered file's key, and are all keys of some file |
| Grouped.GroupMembers | EvaluationTool/src/chart.js:72 | a group holds exactly the filtered files whose `sortBy` rendering is its key |
| Grouped.GroupOfKeyNonEmpty | EvaluationTool/src/chart.js:72 | every group key has at least one member file |
| Grouped.FilePoint | EvaluationTool/src/chart.js:93-107 | a file's point has its `groupBy` value as x and, as y, 0 for no samples, otherwise the 3-decimal rounding of the samples' mean (so within 0.0005 of their range) |
| Grouped.PointsOfFile | EvaluationTool/src/chart.js:89-100 | a file pushes its point for a field once per time the field is listed |
| Grouped.FieldPoints | EvaluationTool/src/chart.js:88-100 | a group yields (times the field is listed) × (member count) points, each the point of some member file; every member's point occurs when the field is listed; with the field listed once, exactly one point per member in member order |
| Grouped.GroupedVariantColor | EvaluationTool/src/chart.js:112-121 | in a single group, a flagged Min/Max variant shares its base field's palette index with variant 1; the base field uses variant 6 |
| Grouped.GroupedColor | EvaluationTool/src/chart.js:112-121 | with several groups the palette index is the group's; with one group it is the base field's position among the fields, -1 exactly when the base field is not one of them; the variant is 1 exactly when the field contains ` Min` with `min` set or ` Max` with `max` set, and 6 otherwise |
| Grouped.FieldSeries | EvaluationTool/src/chart.js:103-127 | a grouped series is strictly increasing in x; its x values are exactly the member files' `groupBy` values (each x belongs to some member, and, for a field in the extended list, as every grouped field is, every member's x occurs); the y at each x is the 3-decimal mean of every collected y at that x; its id is the grouped id and its colour the grouped colour of the field |
| Grouped.GroupSeries | EvaluationTool/src/chart.js:84-129 | a group yields one series per distinct extended field, in field order, each with the grouped id, the grouped colour for this group index, and strictly increasing x |
| Grouped.BuildGrouped | EvaluationTool/src/chart.js:70-131 | one series per group and distinct extended field, each strictly increasing in x |
| Grouped.GroupedId | EvaluationTool/src/chart.js:124 | a single-group id is the field; a multi-group id is the field, ` [`, the group name and `]` |
| Grouped.GroupedIdInjective | EvaluationTool/src/chart.js:124 | multi-group ids determine their field and their group |
| Grouped.BuildGroupedIdsUnique | EvaluationTool/src/chart.js:84-129 | grouped series ids never repeat when no group name contains `[` |
| Ungrouped.IndexedYs | EvaluationTool/src/chart.js:153-156 | the 1-based indexing keeps every sample, in order |
| Ungrouped.Stem | EvaluationTool/src/chart.js:150-152 | the id stem is the field itself in small mode and always starts with the field |
| Ungrouped.StemLarge | EvaluationTool/src/chart.js:138-152 | in large mode the stem is `field - #k [sortBy: value]`, with k the 1-based position of the first selected name equal to the file's |
| Ungrouped.PaletteIndex | EvaluationTool/src/chart.js:138-140 | with one selected file the palette index is the field's position; otherwise it is the file's position among the selected names, -1 exactly when it is not selected |
| Ungrouped.PairSeries | EvaluationTool/src/chart.js:136-191 | a (file, field) pair gives the Min, Max and primary series in that order, each with its samples as points and its id, palette index and variant |
| Ungrouped.PairSeriesCount | EvaluationTool/src/chart.js:141-191 | Min and Max appear only when flagged and non-empty; the primary series always comes last, in variant 6 |
| Ungrouped.SmallModeIds | EvaluationTool/src/chart.js:151-181 | with one selected file an id is the field or the field followed by ` Min` or ` Max` |
| Ungrouped.BuildUngrouped | EvaluationTool/src/chart.js:134-196 | every ungrouped series has x = 1..n and variant 1 or 6; the count is one primary series per selected file and field, plus one per requested non-empty Min or Max list |
| Ungrouped.UngroupedFrom | EvaluationTool/src/chart.js:136-194 | every series built from the files has x = 1..n and variant 1 or 6; there are as many series as, over every file and field, one primary plus one per requested non-empty Min or Max list |
| Ungrouped.UngroupedIdsCanRepeat | EvaluationTool/src/chart.js:148-151 | with one file, `min` set and fields `a` and `a Min`, the Min series of `a` and the primary series of `a Min` share the id `a Min` |
| Ungrouped.UngroupedFromAppend | EvaluationTool/src/chart.js:136 | files are visited one after the other in the order given |
| Ungrouped.BuildUngroupedFollowsLoadedOrder | EvaluationTool/src/chart.js:65-67 | series follow the loaded order of files, not the selection order |
| Scaling.ScaledY | EvaluationTool/src/chart.js:213 | a scaled value lies on the 2-decimal grid |
| Scaling.ScaledYBounds | EvaluationTool/src/chart.js:204-214 | values inside the series' range scale into [0, 100] |
| Scaling.ScaledYEnds | EvaluationTool/src/chart.js:204-214 | the lowest value scales to 0 and the highest to 100 |
| Scaling.ScaleSeries | EvaluationTool/src/chart.js:202-215 | id, colour and x values are kept; a constant or empty series is unchanged; otherwise every y is on the 2-decimal grid |
| Scaling.ScaleSeriesBounds | EvaluationTool/src/chart.js:202-215 | after scaling a series with a spread, no value lies outside [0, 100] |
| Scaling.ScaleSeriesHitsEnds | EvaluationTool/src/chart.js:202-215 | after scaling a series with a spread, both 0 and 100 occur |
| Scaling.ScaleSeriesMonotone | EvaluationTool/src/chart.js:210-215 | scaling keeps the order of any two values of a series |
| Scaling.ScaleSeriesIdempotent | EvaluationTool/src/chart.js:202-215 | scaling an already scaled series changes nothing |
| Scaling.Scale | EvaluationTool/src/chart.js:198-218 | with scale off the data passes through; with it on, count and ids are kept and each series is scaled on its own |
| Scaling.ScaleIdempotent | EvaluationTool/src/chart.js:198-218 | running the scale stage twice equals running it once |
| Equaliser.CutStep | EvaluationTool/src/chart.js:228 | one fold step keeps the running length or takes the new one; from 0 it takes the new length, otherwise it never grows |
| Equaliser.CutLength | EvaluationTool/src/chart.js:225-229 | the folded length is 0 or the length of some series |
| Equaliser.CutLengthIsIntended | EvaluationTool/src/chart.js:225-229 | the fold yields the shortest length after the last empty series, or 0 when the last series is empty |
| Equaliser.Truncate | EvaluationTool/src/chart.js:231 | `slice(0, m)` is a prefix of length m, or the whole list when it is shorter |
| Equaliser.TruncateAll | EvaluationTool/src/chart.js:231 | every series is cut to a prefix of at most m points, with id and colour kept |
| Equaliser.Equalise | EvaluationTool/src/chart.js:219-233 | skipped for one loaded file or a grouped chart; otherwise each series becomes a prefix of itself, cut at the folded length, with count, order, ids and colours kept |
| Equaliser.EqualiseNonEmpty | EvaluationTool/src/chart.js:219-233 | when no series is empty, all end at the shortest length |
| Equaliser.EqualiseAfterLastEmpty | EvaluationTool/src/chart.js:225-231 | when the last empty series is followed only by non-empty ones, every series, including those before the empty one, is cut to the shortest length after it |
| Equaliser.EqualiseEmptyInMiddle | EvaluationTool/src/chart.js:225-231 | one instance of the reset: lengths 3, 0, 5 stay 3, 0, 5, because the fold restarts at the empty series |
| Equaliser.EqualiseCutsBeforeEmpty | EvaluationTool/src/chart.js:225-231 | the other order: lengths 5, 0, 3 become 3, 0, 3, so a series before an empty one is still cut |
| Interpolation.Expand | EvaluationTool/src/chart.js:245-263 | a rebuilt series is empty exactly when the original is, and starts and ends with the original's first and last points |
| Interpolation.ExpandEmbeds | EvaluationTool/src/chart.js:245-263 | every original point is re-emitted unchanged and in order |
| Interpolation.ExpandWithoutFill | EvaluationTool/src/chart.js:245-263 | without filler points a series is rebuilt as it was |
| Interpolation.LowX | EvaluationTool/src/chart.js:236-248 | the tracked minimum x is at most 0 and at most every x, and is 0 or some x |
| Interpolation.HighX | EvaluationTool/src/chart.js:236-249 | the tracked maximum x is at least 0 and at least every x, and is 0 or some x |
| Interpolation.Interpolate | EvaluationTool/src/chart.js:234-281 | off: data unchanged and no ticks; on: count, ids and colours kept, originals embedded in order, ticks are the loop's ticks followed by the rounded maximum x |
| Interpolation.ClosingTickCoversData | EvaluationTool/src/chart.js:273 | the closing tick is at least 0 and at least every point's rounded x |
| Pipeline.BuildSeries | EvaluationTool/src/chart.js:45-197 | grouped series are strictly increasing in x; ungrouped series have x = 1..n |
| Pipeline.Render | EvaluationTool/src/chart.js:41-282 | the renderer gets as many series as were built, with the same ids and colours; ticks only with interpolation; `large` iff more than one file is selected |
| Pipeline.GroupedRenderAscending | EvaluationTool/src/chart.js:198-233 | a grouped chart without interpolation reaches the renderer with every series strictly increasing in x |
| Pipeline.UngroupedRenderOneBased | EvaluationTool/src/chart.js:198-233 | an ungrouped chart without interpolation reaches the renderer with x = 1..n in every series |

## Left out

- Rendering: the `Chart` component, the `ResponsiveLine` props, legends and tooltips. This is display code with no data content.
- Memoisation: `compose` and `withPropsOnChange` are recompute caches. The stages are plain composed functions here.
- Colour lookup: the material colour table comes from `./colors`, which is not part of this model. Colours stay (palette index, palette variant) pairs.
- The 0.01-step filler loop and the tick loop: they are parameters of `Interpolation.Interpolate`. Their point counts and termination depend on IEEE-754 accumulation of 0.01 and of (max - min) / 20, and exact reals would prove things the JavaScript does not guarantee. So the model does not claim that there are 21 ticks, or where filler points fall.
- Floating point: every number is an exact real. `parseFloat` of samples is the identity, and summation order does not matter.
- Object key order: group keys and `Object.keys(xData)` are in insertion order. JavaScript lists integer-like keys first in ascending order; that reordering is not modelled.
- Missing attributes: a missing `file[sortBy]` or `file[groupBy]` reads as the scalar `Undefined`. It renders as "undefined" and counts as 0 when used as x. JavaScript's `undefined` and `NaN` arithmetic is not modelled.
- Grouped.BuildGrouped: states the series count and ordering. Stability of `_sortBy` among equal x values is not stated, because after averaging no two points share an x.
- Grouped.FieldPoints: exact per-file points in order are stated only for a field listed once. A field selected twice makes each file push its point twice; for that case the point count, membership and coverage are stated, but not the order.
- Attribute types: a present attribute is assumed to be a number, and `text` is taken as its rendering. In the source, grouped x is `file[groupBy]` itself, so a string-valued attribute would be compared with `===` as a string and sorted as a string by `_sortBy`. String-valued x is not modelled: grouped x is always the attribute's `num`, and nothing ties `num` to `text`.
- Grouped.BuildGroupedIdsUnique: assumes no group name contains `[`.
- Ungrouped ids: these can repeat. `Ungrouped.UngroupedIdsCanRepeat` gives one case: one file, `min` set, and fields `a` and `a Min`.
- `BodyModel/Sources/Jacobian.cpp` and `BodyModel/Sources/RotationUtility.h` are not part of this model. They hold floating-point matrix and quaternion code over types not shown.

=== FILE: dedup.dfy ===
/**
  `averageDuplicates`: collapses the points of one series that share an x
  into the first of them, whose y becomes the mean of all their ys rounded to
  three decimals. The recursive filter-and-retry algorithm is modelled as
  written and proved equal to a direct definition by first occurrences.
 */
module Dedup {
  import opened ChartTypes
  import opened Numeric
  import opened Seqs

  /** The ys of the points at x, in order. */
  function YsAt(s: seq<Point>, x: real): (ys: seq<real>)
    ensures |ys| <= |s|
  {
    if s == [] then []
    else if s[0].x == x then [s[0].y] + YsAt(s[1..], x)
    else YsAt(s[1..], x)
  }

  /** x occurs in s exactly when some y is recorded at x. */
  lemma {:induction false} YsAtNonEmpty(s: seq<Point>, x: real)
    ensures |YsAt(s, x)| > 0 <==> x in Xs(s)
    decreases |s|
  {
    if s != [] {
      YsAtNonEmpty(s[1..], x);
      assert Xs(s) == [s[0].x] + Xs(s[1..]);
    }
  }

  lemma {:induction false} YsAtAppend(a: seq<Point>, b: seq<Point>, x: real)
    ensures YsAt(a + b, x) == YsAt(a, x) + YsAt(b, x)
    decreases |a|
  {
    if a == [] {
      assert a + b == b;
    } else {
      assert (a + b)[1..] == a[1..] + b;
      YsAtAppend(a[1..], b, x);
    }
  }

  /** `s.filter(d => d.x !== x)` */
  function WithoutX(s: seq<Point>, x: real): (r: seq<Point>)
    ensures |r| <= |s|
  {
    if s == [] then []
    else if s[0].x == x then WithoutX(s[1..], x)
    else [s[0]] + WithoutX(s[1..], x)
  }

  lemma {:induction false} WithoutXAppend(a: seq<Point>, b: seq<Point>, x: real)
    ensures WithoutX(a + b, x) == WithoutX(a, x) + WithoutX(b, x)
    decreases |a|
  {
    if a == [] {
      assert a + b == b;
    } else {
      assert (a + b)[1..] == a[1..] + b;
      WithoutXAppend(a[1..], b, x);
    }
  }

  /** Dropping the points at x drops exactly x from the x sequence. */
  lemma {:induction false} XsWithoutX(s: seq<Point>, x: real)
    ensures Xs(WithoutX(s, x)) == Without(Xs(s), x)
    decreases |s|
  {
    if s != [] {
      XsWithoutX(s[1..], x);
      assert Xs(s)[1..] == Xs(s[1..]);
      if s[0].x != x {
        assert Xs(WithoutX(s, x)) == [s[0].x] + Xs(WithoutX(s[1..], x));
      }
    }
  }

  /** Dropping the points at x leaves the ys at every other abscissa alone. */
  lemma {:induction false} YsAtWithoutX(s: seq<Point>, x: real, z: real)
    requires z != x
    ensures YsAt(WithoutX(s, x), z) == YsAt(s, z)
    decreases |s|
  {
    if s != [] {
      YsAtWithoutX(s[1..], x, z);
    }
  }

  /**
    The direct definition: one point per distinct x, at the place of its first
    occurrence, carrying the rounded mean of every y at that x.
   */
  function AveragedByX(s: seq<Point>): (r: seq<Point>)
    ensures |r| <= |s|
    decreases |s|
  {
    if s == [] then []
    else
      var x := s[0].x;
      assert YsAt(s, x) == [s[0].y] + YsAt(s[1..], x);
      [Point(x, Round3(Average(YsAt(s, x))))] + AveragedByX(WithoutX(s[1..], x))
  }

  /** The abscissae of the direct definition are the distinct input abscissae. */
  lemma {:induction false} AveragedByXXs(s: seq<Point>)
    ensures Xs(AveragedByX(s)) == Distinct(Xs(s))
    decreases |s|
  {
    if s != [] {
      var x := s[0].x;
      var w := WithoutX(s[1..], x);
      AveragedByXXs(w);
      XsWithoutX(s[1..], x);
      assert Xs(s)[1..] == Xs(s[1..]);
      assert Xs(AveragedByX(s)) == [x] + Xs(AveragedByX(w));
    }
  }

  /** Every point of the direct definition carries the rounded mean of the ys at its x. */
  lemma {:induction false} AveragedByXYs(s: seq<Point>)
    ensures forall i :: 0 <= i < |AveragedByX(s)| ==>
      |YsAt(s, AveragedByX(s)[i].x)| > 0 &&
      AveragedByX(s)[i].y == Round3(Average(YsAt(s, AveragedByX(s)[i].x)))
    decreases |s|
  {
    if s != [] {
      var x := s[0].x;
      var w := WithoutX(s[1..], x);
      AveragedByXYs(w);
      var r := AveragedByX(s);
      var rest := AveragedByX(w);
      assert r == [Point(x, Round3(Average(YsAt(s, x))))] + rest;
      AveragedByXXs(w);
      XsWithoutX(s[1..], x);
      forall i | 0 < i < |r|
        ensures |YsAt(s, r[i].x)| > 0 && r[i].y == Round3(Average(YsAt(s, r[i].x)))
      {
        var z := rest[i - 1].x;
        assert r[i] == rest[i - 1];
        assert Xs(rest)[i - 1] == z;
        DistinctMembers(Xs(w));
        assert z in Xs(w);
        assert z != x;
        YsAtWithoutX(s[1..], x, z);
      }
    }
  }

  // ---------------------------------------------------------------------
  // The algorithm as written
  // ---------------------------------------------------------------------

  /** `data.findIndex((d, i) => d.x === data[k].x && i > k)` */
  function FindLaterDuplicate(data: seq<Point>, k: nat): (i: int)
    requires k < |data|
    ensures -1 <= i < |data|
    ensures 0 <= i ==> k < i && data[i].x == data[k].x
    ensures 0 <= i ==> forall j :: k < j < i ==> data[j].x != data[k].x
    ensures i < 0 ==> forall j :: k < j < |data| ==> data[j].x != data[k].x
  {
    FindLaterFrom(data, k, k + 1)
  }

  function FindLaterFrom(data: seq<Point>, k: nat, from: nat): (i: int)
    requires k < from <= |data|
    requires forall j :: k < j < from ==> data[j].x != data[k].x
    ensures -1 <= i < |data|
    ensures 0 <= i ==> from <= i && data[i].x == data[k].x
    ensures 0 <= i ==> forall j :: k < j < i ==> data[j].x != data[k].x
    ensures i < 0 ==> forall j :: k < j < |data| ==> data[j].x != data[k].x
    decreases |data| - from
  {
    if from == |data| then -1
    else if data[from].x == data[k].x then from
    else FindLaterFrom(data, k, from + 1)
  }

  /** `data.filter((d, i) => i !== index)` */
  function RemoveAt(data: seq<Point>, index: nat): (r: seq<Point>)
    requires index < |data|
    ensures |r| == |data| - 1
    ensures forall j :: 0 <= j < index ==> r[j] == data[j]
    ensures forall j :: index <= j < |r| ==> r[j] == data[j + 1]
  {
    data[..index] + data[index + 1..]
  }

  /**
    `averageDuplicates(data, searchIndex, values)`: fold the first later
    duplicate of position k into `values` and retry; when none is left,
    replace position k by the rounded mean and move on.
   */
  function AverageDuplicatesFrom(data: seq<Point>, k: nat, values: seq<real>): seq<Point>
    decreases |data|, |data| - k
  {
    if k >= |data| then data
    else
      var i := FindLaterDuplicate(data, k);
      if i >= 0 then
        AverageDuplicatesFrom(RemoveAt(data, i), k, values + [data[i].y])
      else
        var vs := values + [data[k].y];
        AverageDuplicatesFrom(data[k := Point(data[k].x, Round3(Average(vs)))], k + 1, [])
  }

  /**
    The data once position k is settled: every later y at the same x folded,
    in order, into the accumulator, and those later points dropped.
   */
  function Settled(data: seq<Point>, k: nat, values: seq<real>): (r: seq<Point>)
    requires k < |data|
    ensures k < |r| <= |data|
  {
    var x := data[k].x;
    var vs := values + YsAt(data[k + 1..], x) + [data[k].y];
    data[..k] + [Point(x, Round3(Average(vs)))] + WithoutX(data[k + 1..], x)
  }

  /** One retry: the first later duplicate is folded into the accumulator and removed. */
  lemma FoldOneDuplicate(data: seq<Point>, k: nat, values: seq<real>)
    requires k < |data|
    requires 0 <= FindLaterDuplicate(data, k)
    ensures
      var i := FindLaterDuplicate(data, k);
      AverageDuplicatesFrom(data, k, values) ==
      AverageDuplicatesFrom(RemoveAt(data, i), k, values + [data[i].y])
  {
  }

  /** Removing the first later duplicate does not change the settled form. */
  lemma SettledAfterRemoval(data: seq<Point>, k: nat, values: seq<real>)
    requires k < |data|
    requires 0 <= FindLaterDuplicate(data, k)
    ensures
      var i := FindLaterDuplicate(data, k);
      Settled(RemoveAt(data, i), k, values + [data[i].y]) == Settled(data, k, values)
  {
    var x := data[k].x;
    var i := FindLaterDuplicate(data, k);
    var d' := RemoveAt(data, i);
    var values' := values + [data[i].y];
    assert d'[..k] == data[..k];
    assert d'[k] == data[k];
    var mid := data[k + 1..i];
    assert data[k + 1..] == mid + [data[i]] + data[i + 1..];
    assert d'[k + 1..] == mid + data[i + 1..];
    NoXInRange(mid, x);
    YsAtAppend(mid + [data[i]], data[i + 1..], x);
    YsAtAppend(mid, [data[i]], x);
    YsAtAppend(mid, data[i + 1..], x);
    WithoutXAppend(mid + [data[i]], data[i + 1..], x);
    WithoutXAppend(mid, [data[i]], x);
    WithoutXAppend(mid, data[i + 1..], x);
    assert values' + YsAt(d'[k + 1..], x) == values + YsAt(data[k + 1..], x);
  }

  /** With no later duplicate left, position k is replaced by the rounded mean. */
  lemma SettleWithoutDuplicate(data: seq<Point>, k: nat, values: seq<real>)
    requires k < |data|
    requires FindLaterDuplicate(data, k) < 0
    ensures AverageDuplicatesFrom(data, k, values) == AverageDuplicatesFrom(Settled(data, k, values), k + 1, [])
  {
    var x := data[k].x;
    NoXInRange(data[k + 1..], x);
    var p := Point(x, Round3(Average(values + [data[k].y])));
    assert values + YsAt(data[k + 1..], x) + [data[k].y] == values + [data[k].y];
    assert data[k := p] == data[..k] + [p] + data[k + 1..];
  }

  /**
    The retry loop at position k ends by folding every later y at the same x,
    in order, into the accumulator, and by dropping those later points.
   */
  lemma {:induction false} FoldLaterDuplicates(data: seq<Point>, k: nat, values: seq<real>)
    requires k < |data|
    ensures AverageDuplicatesFrom(data, k, values) == AverageDuplicatesFrom(Settled(data, k, values), k + 1, [])
    decreases |data|
  {
    var i := FindLaterDuplicate(data, k);
    if i >= 0 {
      FoldOneDuplicate(data, k, values);
      FoldLaterDuplicates(RemoveAt(data, i), k, values + [data[i].y]);
      SettledAfterRemoval(data, k, values);
    } else {
      SettleWithoutDuplicate(data, k, values);
    }
  }

  /** A run of points none of which lies at x records no y there and is not filtered. */
  lemma {:induction false} NoXInRange(s: seq<Point>, x: real)
    requires forall j :: 0 <= j < |s| ==> s[j].x != x
    ensures YsAt(s, x) == []
    ensures WithoutX(s, x) == s
    decreases |s|
  {
    if s != [] {
      NoXInRange(s[1..], x);
    }
  }

  /** The point the direct definition places at position k. */
  function HeadPoint(data: seq<Point>, k: nat): Point
    requires k < |data|
  {
    assert YsAt(data[k..], data[k].x) == [data[k].y] + YsAt(data[k + 1..], data[k].x);
    Point(data[k].x, Round3(Average(YsAt(data[k..], data[k].x))))
  }

  /** Settling position k from an empty accumulator yields the direct definition's point there. */
  lemma SettledStart(data: seq<Point>, k: nat)
    requires k < |data|
    ensures Settled(data, k, []) == data[..k] + [HeadPoint(data, k)] + WithoutX(data[k + 1..], data[k].x)
    ensures AveragedByX(data[k..]) == [HeadPoint(data, k)] + AveragedByX(WithoutX(data[k + 1..], data[k].x))
  {
    var x := data[k].x;
    var later := YsAt(data[k + 1..], x);
    assert data[k..][1..] == data[k + 1..];
    assert YsAt(data[k..], x) == [data[k].y] + later;
    SumRotate(later, data[k].y);
    assert [] + later + [data[k].y] == later + [data[k].y];
  }

  /** From position k on, the algorithm as written computes the direct definition. */
  lemma {:induction false} AverageDuplicatesFromIsAveragedByX(data: seq<Point>, k: nat)
    requires k <= |data|
    ensures AverageDuplicatesFrom(data, k, []) == data[..k] + AveragedByX(data[k..])
    decreases |data| - k
  {
    if k == |data| {
      assert data[k..] == [];
    } else {
      var d' := Settled(data, k, []);
      var w := WithoutX(data[k + 1..], data[k].x);
      FoldLaterDuplicates(data, k, []);
      AverageDuplicatesFromIsAveragedByX(d', k + 1);
      SettledStart(data, k);
      SettledSplit(d', data[..k], HeadPoint(data, k), w, AveragedByX(w), AveragedByX(data[k..]));
    }
  }

  lemma SettledSplit(d: seq<Point>, pre: seq<Point>, p: Point, w: seq<Point>, tail: seq<Point>, whole: seq<Point>)
    requires d == pre + [p] + w
    requires whole == [p] + tail
    ensures d[|pre| + 1..] == w
    ensures d[..|pre| + 1] + tail == pre + whole
  {
  }

  /** `averageDuplicates(data)` */
  function AverageDuplicates(data: seq<Point>): (r: seq<Point>)
    ensures r == AveragedByX(data)
    ensures Xs(r) == Distinct(Xs(data))
    ensures |r| <= |data|
    ensures forall i :: 0 <= i < |r| ==>
      |YsAt(data, r[i].x)| > 0 && r[i].y == Round3(Average(YsAt(data, r[i].x)))
  {
    AverageDuplicatesFromIsAveragedByX(data, 0);
    AveragedByXXs(data);
    AveragedByXYs(data);
    assert data[..0] + AveragedByX(data[0..]) == AveragedByX(data);
    AverageDuplicatesFrom(data, 0, [])
  }

  /** In a series whose abscissae are already distinct, each x carries just its own y. */
  lemma {:induction false} YsAtOfUnique(s: seq<Point>, i: nat)
    requires Unique(Xs(s))
    requires i < |s|
    ensures YsAt(s, s[i].x) == [s[i].y]
    decreases |s|
  {
    var t := s[1..];
    assert Xs(t) == Xs(s)[1..];
    assert Unique(Xs(t));
    if i == 0 {
      YsAtNonEmpty(t, s[0].x);
    } else {
      assert Xs(s)[i] == s[i].x && Xs(s)[0] == s[0].x;
      assert s[i] == t[i - 1];
      YsAtOfUnique(t, i - 1);
    }
  }

  /** Distinct input abscissae pass through with their order unchanged. */
  lemma AverageDuplicatesKeepsDistinctXs(data: seq<Point>)
    requires Unique(Xs(data))
    ensures Xs(AverageDuplicates(data)) == Xs(data)
  {
    DistinctOfUnique(Xs(data));
  }

  /** The mean of a single value on the three-decimal grid, rounded to three decimals, is that value. */
  lemma RoundedSingleMean(y: real)
    requires OnGrid(y, 1000.0)
    ensures Round3(Average([y])) == y
  {
    assert [y][1..] == [];
    assert Sum([y]) == y;
    RoundToOnGrid(y, 1000.0);
  }

  /** Points with distinct abscissae and ys on the three-decimal grid pass through unchanged. */
  lemma {:induction false} AverageDuplicatesFixed(s: seq<Point>)
    requires Unique(Xs(s))
    requires forall i :: 0 <= i < |s| ==> OnGrid(s[i].y, 1000.0)
    ensures AverageDuplicates(s) == s
  {
    var r := AverageDuplicates(s);
    assert Xs(r) == Xs(s) by {
      DistinctOfUnique(Xs(s));
    }
    MeansAtOwnXs(s, r);
  }

  /** Points at the same abscissae that each carry the rounded mean of the ys there are the original points. */
  lemma MeansAtOwnXs(s: seq<Point>, r: seq<Point>)
    requires Unique(Xs(s))
    requires forall i :: 0 <= i < |s| ==> OnGrid(s[i].y, 1000.0)
    requires Xs(r) == Xs(s)
    requires forall i :: 0 <= i < |r| ==>
      |YsAt(s, r[i].x)| > 0 && r[i].y == Round3(Average(YsAt(s, r[i].x)))
    ensures r == s
  {
    forall i | 0 <= i < |s|
      ensures r[i] == s[i]
    {
      assert r[i].x == Xs(r)[i] == Xs(s)[i] == s[i].x;
      MeanAtOwnX(s, i, r[i].y);
    }
  }

  /** The rounded mean of the ys at the abscissa of a point alone there is that point's own y. */
  lemma MeanAtOwnX(s: seq<Point>, i: nat, y: real)
    requires Unique(Xs(s))
    requires i < |s| && OnGrid(s[i].y, 1000.0)
    requires |YsAt(s, s[i].x)| > 0 && y == Round3(Average(YsAt(s, s[i].x)))
    ensures y == s[i].y
  {
    YsAtOfUnique(s, i);
    RoundedSingleMean(s[i].y);
  }

  /** Averaging a second time changes nothing: no duplicates remain and every y is already rounded. */
  lemma AverageDuplicatesIdempotent(data: seq<Point>)
    ensures AverageDuplicates(AverageDuplicates(data)) == AverageDuplicates(data)
  {
    var r := AverageDuplicates(data);
    DistinctUnique(Xs(data));
    assert forall i :: 0 <= i < |r| ==> OnGrid(r[i].y, 1000.0);
    AverageDuplicatesFixed(r);
  }

  /** The worked case: (1, 2), (2, 4), (1, 6) averages to (1, 4), (2, 4). */
  lemma AverageDuplicatesExample()
    ensures AverageDuplicates([Point(1.0, 2.0), Point(2.0, 4.0), Point(1.0, 6.0)]) ==
      [Point(1.0, 4.0), Point(2.0, 4.0)]
  {
    var s := [Point(1.0, 2.0), Point(2.0, 4.0), Point(1.0, 6.0)];
    assert s[1..] == [Point(2.0, 4.0), Point(1.0, 6.0)];
    assert YsAt(s, 1.0) == [2.0, 6.0];
    assert Sum([2.0, 6.0]) == 8.0;
    assert WithoutX(s[1..], 1.0) == [Point(2.0, 4.0)];
    assert YsAt([Point(2.0, 4.0)], 2.0) == [4.0];
    assert Sum([4.0]) == 4.0;
    assert OnGrid(4.0, 1000.0);
    RoundToOnGrid(4.0, 1000.0);
    assert AveragedByX([Point(2.0, 4.0)]) == [Point(2.0, 4.0)];
  }
}

=== FILE: equaliser.dfy ===
/**
  The length equaliser: unless exactly one file is loaded or the chart is
  grouped, every series is cut to a common length. The common length is
  folded over the series with the test `!min || length < min`, so a series
  of length 0 resets the fold: the cut is the shortest length among the
  series AFTER the last empty one, and 0 when the last series is empty.
 */
module Equaliser {
  import opened ChartTypes

  /** One step of the fold: `if (!min || length < min) min = length`, with 0 standing for both `undefined` and 0. */
  function CutStep(m: nat, length: nat): (r: nat)
    ensures r == length || r == m
    ensures m == 0 ==> r == length
    ensures m > 0 ==> r <= m && r <= length
  {
    if m == 0 || length < m then length else m
  }

  /** The cut after folding over every series of data, in order. */
  function CutLength(data: seq<Series>): (m: nat)
    ensures m == 0 || exists i :: 0 <= i < |data| && m == |data[i].points|
  {
    if data == [] then 0
    else
      var pre := data[..|data| - 1];
      var m := CutStep(CutLength(pre), |data[|data| - 1].points|);
      assert m != |data[|data| - 1].points| ==> m == CutLength(pre);
      assert forall i :: 0 <= i < |pre| ==> pre[i] == data[i];
      m
  }

  /** The shortest series length in a non-empty data set. */
  function MinLength(data: seq<Series>): (m: nat)
    requires data != []
    ensures exists i :: 0 <= i < |data| && m == |data[i].points|
    ensures forall i :: 0 <= i < |data| ==> m <= |data[i].points|
  {
    if |data| == 1 then |data[0].points|
    else
      var rest := MinLength(data[1..]);
      if |data[0].points| <= rest then |data[0].points| else rest
  }

  /** The index of the last empty series, or -1 when there is none. */
  function LastEmpty(data: seq<Series>): (k: int)
    ensures -1 <= k < |data|
    ensures k >= 0 ==> data[k].points == []
    ensures forall i :: k < i < |data| ==> data[i].points != []
  {
    if data == [] then -1
    else if data[|data| - 1].points == [] then |data| - 1
    else LastEmpty(data[..|data| - 1])
  }

  /** The cut stated directly: the shortest length after the last empty series, 0 if nothing follows it. */
  function IntendedCut(data: seq<Series>): nat
  {
    var k := LastEmpty(data);
    if k + 1 == |data| then 0 else MinLength(data[k + 1..])
  }

  lemma MinLengthSnoc(pre: seq<Series>, d: Series)
    requires pre != []
    ensures MinLength(pre + [d]) == if |d.points| < MinLength(pre) then |d.points| else MinLength(pre)
  {
    var all := pre + [d];
    var m := MinLength(all);
    var a := MinLength(pre);
    var want := if |d.points| < a then |d.points| else a;
    var i :| 0 <= i < |all| && m == |all[i].points|;
    var j :| 0 <= j < |pre| && a == |pre[j].points|;
    assert all[j] == pre[j];
    assert all[|pre|] == d;
    if i < |pre| {
      assert all[i] == pre[i];
    }
  }

  /** The fold computes exactly the cut stated by IntendedCut. */
  lemma {:induction false} CutLengthIsIntended(data: seq<Series>)
    ensures CutLength(data) == IntendedCut(data)
    decreases |data|
  {
    if data != [] {
      var n := |data|;
      var pre := data[..n - 1];
      var d := data[n - 1];
      assert data == pre + [d];
      CutLengthIsIntended(pre);
      var m := CutLength(pre);
      if d.points != [] {
        var k := LastEmpty(pre);
        assert LastEmpty(data) == k;
        if k + 1 == |pre| {
          assert data[k + 1..] == [d];
        } else {
          assert MinLength(pre[k + 1..]) > 0 by {
            var i :| 0 <= i < |pre[k + 1..]| && MinLength(pre[k + 1..]) == |pre[k + 1..][i].points|;
            assert pre[k + 1..][i] == pre[k + 1 + i];
          }
          assert data[k + 1..] == pre[k + 1..] + [d];
          MinLengthSnoc(pre[k + 1..], d);
        }
      }
    }
  }

  /** `points.slice(0, m)` */
  function Truncate(points: seq<Point>, m: nat): (r: seq<Point>)
    ensures |r| == if m <= |points| then m else |points|
    ensures r <= points
  {
    if m <= |points| then points[..m] else points
  }

  /** Every series cut to its first m points, as `data.map(d => ({...d, data: d.data.slice(0, m)}))`. */
  function TruncateAll(data: seq<Series>, m: nat): (r: seq<Series>)
    ensures |r| == |data|
    ensures forall i :: 0 <= i < |data| ==>
      && r[i].id == data[i].id
      && r[i].color == data[i].color
      && r[i].points <= data[i].points
      && |r[i].points| == if m <= |data[i].points| then m else |data[i].points|
  {
    seq(|data|, i requires 0 <= i < |data| => data[i].(points := Truncate(data[i].points, m)))
  }

  /** The equaliser is skipped for a single loaded file and for grouped charts. */
  predicate Skipped(filesCount: nat, groupBy: string)
  {
    filesCount == 1 || groupBy != ""
  }

  /** The equaliser stage. */
  function Equalise(data: seq<Series>, filesCount: nat, groupBy: string): (r: seq<Series>)
    ensures |r| == |data|
    ensures Skipped(filesCount, groupBy) ==> r == data
    ensures forall i :: 0 <= i < |data| ==>
      && r[i].id == data[i].id
      && r[i].color == data[i].color
      && r[i].points <= data[i].points
    ensures !Skipped(filesCount, groupBy) ==> forall i :: 0 <= i < |data| ==>
      |r[i].points| == if IntendedCut(data) <= |data[i].points| then IntendedCut(data) else |data[i].points|
  {
    if Skipped(filesCount, groupBy) then data
    else
      var m := CutLength(data);
      CutLengthIsIntended(data);
      TruncateAll(data, m)
  }

  /** Only the series after the last empty one decide the cut: every series is cut to the shortest of those. */
  lemma EqualiseAfterLastEmpty(pre: seq<Series>, e: Series, post: seq<Series>, filesCount: nat, groupBy: string)
    requires !Skipped(filesCount, groupBy)
    requires e.points == [] && post != []
    requires forall i :: 0 <= i < |post| ==> post[i].points != []
    ensures var data := pre + [e] + post;
      var r := Equalise(data, filesCount, groupBy);
      forall i :: 0 <= i < |data| ==>
        |r[i].points| == if MinLength(post) <= |data[i].points| then MinLength(post) else |data[i].points|
  {
    var data := pre + [e] + post;
    assert data[|pre|] == e;
    assert forall i :: |pre| < i < |data| ==> data[i] == post[i - |pre| - 1];
    LastEmptyIs(data, |pre|);
    assert data[|pre| + 1..] == post;
  }

  /** The last empty series is the empty one that only non-empty series follow. */
  lemma {:induction false} LastEmptyIs(data: seq<Series>, k: nat)
    requires k < |data| && data[k].points == []
    requires forall i :: k < i < |data| ==> data[i].points != []
    ensures LastEmpty(data) == k
    decreases |data|
  {
    if k < |data| - 1 {
      var pre := data[..|data| - 1];
      assert forall i :: k < i < |pre| ==> pre[i] == data[i];
      LastEmptyIs(pre, k);
    }
  }

  /** When no series is empty the equaliser cuts every series to the length of the shortest one. */
  lemma EqualiseNonEmpty(data: seq<Series>, filesCount: nat, groupBy: string)
    requires !Skipped(filesCount, groupBy)
    requires data != []
    requires forall i :: 0 <= i < |data| ==> data[i].points != []
    ensures var r := Equalise(data, filesCount, groupBy);
      forall i :: 0 <= i < |data| ==> |r[i].points| == MinLength(data)
  {
    assert LastEmpty(data) == -1;
    assert data[0..] == data;
  }

  /**
    A worked instance of the reset: with lengths 3, 0 and 5 the fold goes
    3, then 0, then 5, so nothing is cut. EqualiseCutsBeforeEmpty shows the
    other order, and EqualiseAfterLastEmpty states the general rule.
   */
  lemma EqualiseEmptyInMiddle(a: Series, b: Series, c: Series)
    requires |a.points| == 3 && b.points == [] && |c.points| == 5
    ensures Equalise([a, b, c], 2, "") == [a, b, c]
  {
    var data := [a, b, c];
    assert data[..2] == [a, b];
    assert [a, b][..1] == [a];
    assert [a][..0] == [];
    assert CutLength(data) == 5;
    assert c.points[..5] == c.points;
    var r := Equalise(data, 2, "");
    assert r[0] == a && r[1] == b && r[2] == c;
  }

  /** With lengths 5, 0 and 3 the fold ends at 3: the first series is cut to 3 although an empty one follows it. */
  lemma EqualiseCutsBeforeEmpty(a: Series, b: Series, c: Series)
    requires |a.points| == 5 && b.points == [] && |c.points| == 3
    ensures var r := Equalise([a, b, c], 2, "");
      |r| == 3 && r[0].points == a.points[..3] && r[1] == b && r[2] == c
  {
    var data := [a, b, c];
    assert data[..2] == [a, b];
    assert [a, b][..1] == [a];
    assert [a][..0] == [];
    assert CutLength(data) == 3;
    assert c.points[..3] == c.points;
  }
}

=== FILE: grouped.dfy ===
/**
  The grouped mode of the series builder (`groupBy` set): the selected files
  are grouped by their `sortBy` attribute, and each group gets one series per
  extended field. A series holds one point per file of the group, at the
  file's `groupBy` attribute. Its y is the file's mean sample, rounded to three
  decimals. The points are then averaged by abscissa and sorted.
 */
module Grouped {
  import opened ChartTypes
  import opened Numeric
  import opened Seqs
  import opened Text
  import opened Dedup
  import opened Sorting
  import opened Selection

  /**
    The extended field list: each selected field, then its Min variant when
    `min` is set, then its Max variant when `max` is set. The source guards
    each variant with a probe `get(selectedFiles, [0, 'values', key], [])`;
    `selectedFiles` holds file names, so the probe always falls back to `[]`,
    which is truthy, and only the flag decides.
   */
  function ExtendedFields(fields: seq<string>, min: bool, max: bool): (ext: seq<string>)
    ensures |ext| == |fields| + (if min then |fields| else 0) + (if max then |fields| else 0)
    ensures forall i :: 0 <= i < |fields| ==> fields[i] in ext
    ensures min ==> forall i :: 0 <= i < |fields| ==> fields[i] + " Min" in ext
    ensures max ==> forall i :: 0 <= i < |fields| ==> fields[i] + " Max" in ext
  {
    if fields == [] then []
    else
      var f := fields[0];
      var rest := ExtendedFields(fields[1..], min, max);
      var head := [f] + (if min then [f + " Min"] else []) + (if max then [f + " Max"] else []);
      assert forall i :: 0 < i < |fields| ==> fields[i] == fields[1..][i - 1];
      head + rest
  }

  /** Nothing but the fields and their flagged variants enters the extended list. */
  lemma {:induction false} ExtendedFieldsOnly(fields: seq<string>, min: bool, max: bool, e: string)
    requires e in ExtendedFields(fields, min, max)
    ensures exists f :: f in fields && (e == f || (min && e == f + " Min") || (max && e == f + " Max"))
    decreases |fields|
  {
    var f := fields[0];
    var head := [f] + (if min then [f + " Min"] else []) + (if max then [f + " Max"] else []);
    assert ExtendedFields(fields, min, max) == head + ExtendedFields(fields[1..], min, max);
    if e in head {
      assert f in fields;
      assert e == f || (min && e == f + " Min") || (max && e == f + " Max");
    } else {
      ExtendedFieldsOnly(fields[1..], min, max, e);
      var g :| g in fields[1..] && (e == g || (min && e == g + " Min") || (max && e == g + " Max"));
      assert g in fields;
    }
  }

  /** A single field contributes itself, then its Min variant, then its Max variant, each when flagged. */
  lemma ExtendedFieldsOne(f: string, min: bool, max: bool)
    ensures ExtendedFields([f], min, max) ==
      [f] + (if min then [f + " Min"] else []) + (if max then [f + " Max"] else [])
  {
    assert [f][1..] == [];
  }

  /** The extended list is built field by field: extending a concatenation concatenates the extensions. */
  lemma {:induction false} ExtendedFieldsAppend(a: seq<string>, b: seq<string>, min: bool, max: bool)
    ensures ExtendedFields(a + b, min, max) == ExtendedFields(a, min, max) + ExtendedFields(b, min, max)
    decreases |a|
  {
    if a == [] {
      assert a + b == b;
    } else {
      var f := a[0];
      var head := [f] + (if min then [f + " Min"] else []) + (if max then [f + " Max"] else []);
      assert (a + b)[0] == f;
      assert (a + b)[1..] == a[1..] + b;
      var tail, later := ExtendedFields(a[1..], min, max), ExtendedFields(b, min, max);
      ExtendedFieldsAppend(a[1..], b, min, max);
      assert ExtendedFields(a + b, min, max) == head + (tail + later);
      assert ExtendedFields(a, min, max) == head + tail;
      ConcatAssoc(head, tail, later);
    }
  }

  lemma ConcatAssoc<T>(x: seq<T>, y: seq<T>, z: seq<T>)
    ensures x + (y + z) == (x + y) + z
  {
  }

  /** `String(file[sortBy])` for every file: the key `_groupBy` files it under. */
  function SortKeys(files: seq<FileRecord>, sortBy: string): (ks: seq<string>)
    ensures |ks| == |files|
    ensures forall i :: 0 <= i < |files| ==> ks[i] == AttrOf(files[i], sortBy).text
  {
    if files == [] then [] else [AttrOf(files[0], sortBy).text] + SortKeys(files[1..], sortBy)
  }

  /** `Object.keys(_groupBy(files, sortBy))`, in order of first appearance. */
  function GroupKeys(files: seq<FileRecord>, sortBy: string): seq<string>
  {
    Distinct(SortKeys(files, sortBy))
  }

  /** `_groupBy(files, sortBy)[g]`: the files under key g, in their order. */
  function GroupMembers(files: seq<FileRecord>, sortBy: string, g: string): (ms: seq<FileRecord>)
    ensures forall i :: 0 <= i < |ms| ==> ms[i] in files && AttrOf(ms[i], sortBy).text == g
    ensures forall i :: 0 <= i < |files| && AttrOf(files[i], sortBy).text == g ==> files[i] in ms
  {
    if files == [] then []
    else if AttrOf(files[0], sortBy).text == g then [files[0]] + GroupMembers(files[1..], sortBy, g)
    else GroupMembers(files[1..], sortBy, g)
  }

  /** Every group key names a non-empty group. */
  lemma GroupOfKeyNonEmpty(files: seq<FileRecord>, sortBy: string, g: string)
    requires g in GroupKeys(files, sortBy)
    ensures |GroupMembers(files, sortBy, g)| > 0
  {
    var ks := SortKeys(files, sortBy);
    DistinctMembers(ks);
    var i :| 0 <= i < |ks| && ks[i] == g;
    assert files[i] in GroupMembers(files, sortBy, g);
  }

  /** The group keys are the files' key strings, each listed once. */
  lemma GroupKeysAreKeys(files: seq<FileRecord>, sortBy: string)
    ensures Unique(GroupKeys(files, sortBy))
    ensures forall i :: 0 <= i < |files| ==> AttrOf(files[i], sortBy).text in GroupKeys(files, sortBy)
    ensures forall k :: 0 <= k < |GroupKeys(files, sortBy)| ==> GroupKeys(files, sortBy)[k] in SortKeys(files, sortBy)
  {
    var ks := SortKeys(files, sortBy);
    DistinctUnique(ks);
    DistinctMembers(ks);
  }

  /** How often v occurs in s. */
  function Count(s: seq<string>, v: string): nat
  {
    if s == [] then 0 else (if s[0] == v then 1 else 0) + Count(s[1..], v)
  }

  /** A field occurring once in a list without repetitions. */
  lemma {:induction false} CountOfUnique(s: seq<string>, v: string)
    requires Unique(s) && v in s
    ensures Count(s, v) == 1
    decreases |s|
  {
    assert forall i :: 0 < i < |s| ==> s[i] == s[1..][i - 1];
    if s[0] == v {
      CountAbsent(s[1..], v);
    } else {
      CountOfUnique(s[1..], v);
    }
  }

  lemma {:induction false} CountAbsent(s: seq<string>, v: string)
    requires v !in s
    ensures Count(s, v) == 0
    decreases |s|
  {
    if s != [] {
      CountAbsent(s[1..], v);
    }
  }

  /** The point a file contributes for a field: x = `file[groupBy]`, y = its mean sample rounded to 3 decimals. */
  function FilePoint(file: FileRecord, field: string, groupBy: string): (p: Point)
    ensures p.x == AttrOf(file, groupBy).num
    ensures ValuesOf(file, field) == [] ==> p.y == 0.0
    ensures ValuesOf(file, field) != [] ==> p.y == Round3(Average(ValuesOf(file, field)))
    ensures ValuesOf(file, field) != [] ==>
      MinOf(ValuesOf(file, field)) - 0.0005 < p.y <= MaxOf(ValuesOf(file, field)) + 0.0005
  {
    Point(AttrOf(file, groupBy).num, Round3(SampleMean(ValuesOf(file, field))))
  }

  /** What one file pushes to `xData[field]`/`yData[field]` while walking the extended fields. */
  function PointsOfFile(file: FileRecord, ext: seq<string>, field: string, groupBy: string): (ps: seq<Point>)
    ensures |ps| == Count(ext, field)
    ensures forall k :: 0 <= k < |ps| ==> ps[k] == FilePoint(file, field, groupBy)
  {
    if ext == [] then []
    else
      (if ext[0] == field then [FilePoint(file, field, groupBy)] else [])
      + PointsOfFile(file, ext[1..], field, groupBy)
  }

  /** The point each member contributes for a field, in member order. */
  function MemberPoints(members: seq<FileRecord>, field: string, groupBy: string): (ps: seq<Point>)
    ensures |ps| == |members|
    ensures forall i :: 0 <= i < |members| ==> ps[i] == FilePoint(members[i], field, groupBy)
  {
    seq(|members|, i requires 0 <= i < |members| => FilePoint(members[i], field, groupBy))
  }

  /**
    The points collected for one field over the files of a group, before
    averaging: every file pushes its point once per listing of the field.
   */
  function FieldPoints(members: seq<FileRecord>, ext: seq<string>, field: string, groupBy: string): (ps: seq<Point>)
    ensures |ps| == |members| * Count(ext, field)
    ensures Count(ext, field) == 1 ==> ps == MemberPoints(members, field, groupBy)
    ensures forall k :: 0 <= k < |ps| ==> ps[k] in MemberPoints(members, field, groupBy)
    ensures field in ext ==> forall i :: 0 <= i < |members| ==> FilePoint(members[i], field, groupBy) in ps
  {
    if members == [] then []
    else
      var head := PointsOfFile(members[0], ext, field, groupBy);
      var rest := FieldPoints(members[1..], ext, field, groupBy);
      FieldPointsStep(members, ext, field, groupBy, head, rest);
      head + rest
  }

  /** The id of a grouped series: `${field} [${group}]` when there are several groups. */
  function GroupedId(field: string, group: string, multi: bool): (r: string)
    ensures !multi ==> r == field
    ensures multi ==> |r| == |field| + |group| + 3 && r[..|field|] == field && r[|field|..|field| + 2] == " ["
    ensures multi ==> r[|r| - 1] == ']' && r[|field| + 2..|r| - 1] == group
  {
    if multi then field + " [" + group + "]" else field
  }

  /**
    The colour of a grouped series: the group index when there are several
    groups, otherwise the index of the field's base name among the fields;
    variant 1 for a flagged Min/Max field, 6 for the rest.
   */
  function GroupedColor(field: string, groupIndex: nat, multi: bool, fields: seq<string>, min: bool, max: bool): (c: Color)
    ensures multi ==> c.index == groupIndex
    ensures !multi ==> (c.index == -1 <==> StripMinMax(field) !in fields)
    ensures !multi && c.index >= 0 ==> c.index < |fields| && fields[c.index] == StripMinMax(field)
    ensures c.variant == 1 || c.variant == 6
    ensures c.variant == 1 <==> (min && Contains(field, " Min")) || (max && Contains(field, " Max"))
  {
    Color(
      if multi then groupIndex else FindIndex(fields, StripMinMax(field)),
      if (min && Contains(field, " Min")) || (max && Contains(field, " Max")) then 1 else 6)
  }

  /**
    In a single group, a Min or Max variant shares its base field's palette
    index and takes variant 1, while the base field takes variant 6.
   */
  lemma GroupedVariantColor(f: string, marker: string, fields: seq<string>, min: bool, max: bool)
    requires (marker == " Min" && min) || (marker == " Max" && max)
    requires forall i :: !OccursAt(f, " Min", i)
    requires forall i :: !OccursAt(f, " Max", i)
    ensures GroupedColor(f + marker, 0, false, fields, min, max) ==
      Color(GroupedColor(f, 0, false, fields, min, max).index, 1)
    ensures GroupedColor(f, 0, false, fields, min, max).variant == 6
  {
    var base, variant := StripMinMax(f), StripMinMax(f + marker);
    assert base == f && variant == f by {
      StripMinMaxOfVariant(f, marker);
      StripMinMaxOfPlain(f);
    }
    VariantIsMarked(f, marker, min, max);
    assert !Contains(f, " Min") && !Contains(f, " Max");
  }

  /** A flagged marker appended to a field is found by the `includes` test of its flag. */
  lemma VariantIsMarked(f: string, marker: string, min: bool, max: bool)
    requires (marker == " Min" && min) || (marker == " Max" && max)
    ensures (min && Contains(f + marker, " Min")) || (max && Contains(f + marker, " Max"))
  {
    assert OccursAt(f + marker, marker, |f|) by {
      assert (f + marker)[|f|..|f| + 4] == marker;
    }
  }

  /** A field listed in ext is counted there at least once. */
  lemma {:induction false} CountPresent(s: seq<string>, v: string)
    requires v in s
    ensures Count(s, v) > 0
    decreases |s|
  {
    if s[0] != v {
      assert v in s[1..];
      CountPresent(s[1..], v);
    }
  }

  lemma MulStep(n: nat, c: nat)
    requires n > 0
    ensures n * c == c + (n - 1) * c
  {
  }

  /** Two runs of strictly ascending series concatenate to one. */
  lemma {:induction false} AscendingConcat(here: seq<Series>, rest: seq<Series>)
    requires forall i :: 0 <= i < |here| ==> StrictlyAscending(here[i].points)
    requires forall i :: 0 <= i < |rest| ==> StrictlyAscending(rest[i].points)
    ensures forall i :: 0 <= i < |here + rest| ==> StrictlyAscending((here + rest)[i].points)
  {
    forall i | 0 <= i < |here + rest|
      ensures StrictlyAscending((here + rest)[i].points)
    {
      if i >= |here| {
        assert (here + rest)[i] == rest[i - |here|];
      }
    }
  }

  /** The members' points, split as the first member's and the later members'. */
  lemma {:induction false} MemberPointsCons(members: seq<FileRecord>, field: string, groupBy: string)
    requires members != []
    ensures MemberPoints(members, field, groupBy) ==
      [FilePoint(members[0], field, groupBy)] + MemberPoints(members[1..], field, groupBy)
  {
    var all := MemberPoints(members, field, groupBy);
    var later := MemberPoints(members[1..], field, groupBy);
    var joined := [FilePoint(members[0], field, groupBy)] + later;
    assert |all| == |joined|;
    forall i | 0 <= i < |all|
      ensures all[i] == joined[i]
    {
      if i > 0 {
        assert members[1..][i - 1] == members[i];
      }
    }
  }

  /** The first member's points followed by the later members' points keep each property of FieldPoints. */
  lemma {:induction false} FieldPointsStep(members: seq<FileRecord>, ext: seq<string>, field: string, groupBy: string,
                        head: seq<Point>, rest: seq<Point>)
    requires members != []
    requires head == PointsOfFile(members[0], ext, field, groupBy)
    requires |rest| == (|members| - 1) * Count(ext, field)
    requires Count(ext, field) == 1 ==> rest == MemberPoints(members[1..], field, groupBy)
    requires forall k :: 0 <= k < |rest| ==> rest[k] in MemberPoints(members[1..], field, groupBy)
    requires field in ext ==> forall i :: 0 <= i < |members| - 1 ==> FilePoint(members[1..][i], field, groupBy) in rest
    ensures |head + rest| == |members| * Count(ext, field)
    ensures Count(ext, field) == 1 ==> head + rest == MemberPoints(members, field, groupBy)
    ensures forall k :: 0 <= k < |head + rest| ==> (head + rest)[k] in MemberPoints(members, field, groupBy)
    ensures field in ext ==> forall i :: 0 <= i < |members| ==> FilePoint(members[i], field, groupBy) in head + rest
  {
    var c := Count(ext, field);
    MulStep(|members|, c);
    MemberPointsCons(members, field, groupBy);
    FieldPointsFromMembers(members, field, groupBy, head, rest);
    if c == 1 {
      assert head == [FilePoint(members[0], field, groupBy)];
    }
    if field in ext {
      CountPresent(ext, field);
      FieldPointsCoverMembers(members, field, groupBy, head, rest);
    }
  }

  /** Points of the first member followed by points of later members are all points of some member. */
  lemma {:induction false} FieldPointsFromMembers(members: seq<FileRecord>, field: string, groupBy: string, head: seq<Point>, rest: seq<Point>)
    requires members != []
    requires forall k :: 0 <= k < |head| ==> head[k] == FilePoint(members[0], field, groupBy)
    requires forall k :: 0 <= k < |rest| ==> rest[k] in MemberPoints(members[1..], field, groupBy)
    requires MemberPoints(members, field, groupBy) ==
      [FilePoint(members[0], field, groupBy)] + MemberPoints(members[1..], field, groupBy)
    ensures forall k :: 0 <= k < |head + rest| ==> (head + rest)[k] in MemberPoints(members, field, groupBy)
  {
    var ps := head + rest;
    forall k | 0 <= k < |ps|
      ensures ps[k] in MemberPoints(members, field, groupBy)
    {
      if k < |head| {
        assert ps[k] == MemberPoints(members, field, groupBy)[0];
      } else {
        assert ps[k] == rest[k - |head|];
      }
    }
  }

  /** A non-empty first block of the first member's points, then every later member's point, covers every member. */
  lemma {:induction false} FieldPointsCoverMembers(members: seq<FileRecord>, field: string, groupBy: string, head: seq<Point>, rest: seq<Point>)
    requires members != []
    requires head != [] && head[0] == FilePoint(members[0], field, groupBy)
    requires forall i :: 0 <= i < |members| - 1 ==> FilePoint(members[1..][i], field, groupBy) in rest
    ensures forall i :: 0 <= i < |members| ==> FilePoint(members[i], field, groupBy) in head + rest
  {
    forall i | 0 <= i < |members|
      ensures FilePoint(members[i], field, groupBy) in head + rest
    {
      if i == 0 {
        assert (head + rest)[0] == head[0];
      } else {
        assert members[i] == members[1..][i - 1];
        assert FilePoint(members[i], field, groupBy) in rest;
      }
    }
  }

  /** Sorting the averaged points of some members yields only abscissae those members carry. */
  lemma {:induction false} SortedAbscissaeFromMembers(members: seq<FileRecord>, raw: seq<Point>, sorted: seq<Point>, field: string, groupBy: string)
    requires forall k :: 0 <= k < |raw| ==> raw[k] in MemberPoints(members, field, groupBy)
    requires multiset(sorted) == multiset(AverageDuplicates(raw))
    ensures forall k :: 0 <= k < |sorted| ==>
      exists i :: 0 <= i < |members| && sorted[k].x == AttrOf(members[i], groupBy).num
  {
    var averaged := AverageDuplicates(raw);
    forall k | 0 <= k < |sorted|
      ensures exists i :: 0 <= i < |members| && sorted[k].x == AttrOf(members[i], groupBy).num
    {
      assert sorted[k] in multiset(sorted);
      assert sorted[k] in averaged;
      var m :| 0 <= m < |averaged| && averaged[m] == sorted[k];
      assert Xs(averaged)[m] == sorted[k].x;
      DistinctMembers(Xs(raw));
      assert sorted[k].x in Xs(raw);
      var n :| 0 <= n < |raw| && Xs(raw)[n] == sorted[k].x;
      assert raw[n].x == sorted[k].x;
      MemberPointX(members, field, groupBy, raw[n]);
    }
  }

  /** A point of some member lies at that member's `groupBy` attribute. */
  lemma MemberPointX(members: seq<FileRecord>, field: string, groupBy: string, p: Point)
    requires p in MemberPoints(members, field, groupBy)
    ensures exists i :: 0 <= i < |members| && p.x == AttrOf(members[i], groupBy).num
  {
    var all := MemberPoints(members, field, groupBy);
    var i :| 0 <= i < |all| && all[i] == p;
    assert p == FilePoint(members[i], field, groupBy);
  }

  /** Every member's abscissa survives averaging and sorting of points that include every member's point. */
  lemma {:induction false} SortedCoversMembers(members: seq<FileRecord>, raw: seq<Point>, sorted: seq<Point>, field: string,
                            listed: bool, groupBy: string)
    requires listed ==> forall i :: 0 <= i < |members| ==> FilePoint(members[i], field, groupBy) in raw
    requires multiset(sorted) == multiset(AverageDuplicates(raw))
    ensures listed ==> forall i :: 0 <= i < |members| ==> AttrOf(members[i], groupBy).num in Xs(sorted)
  {
    if !listed {
      return;
    }
    var averaged := AverageDuplicates(raw);
    DistinctMembers(Xs(raw));
    forall i | 0 <= i < |members|
      ensures AttrOf(members[i], groupBy).num in Xs(sorted)
    {
      var p := FilePoint(members[i], field, groupBy);
      var n :| 0 <= n < |raw| && raw[n] == p;
      assert Xs(raw)[n] == p.x;
      assert p.x in Xs(averaged);
      var j :| 0 <= j < |averaged| && Xs(averaged)[j] == p.x;
      assert averaged[j] in multiset(averaged);
      assert averaged[j] in sorted;
      var k :| 0 <= k < |sorted| && sorted[k] == averaged[j];
      assert Xs(sorted)[k] == p.x;
    }
  }

  /** After sorting, each point still carries the rounded mean of every raw y at its abscissa. */
  lemma {:induction false} SortedMeans(raw: seq<Point>, sorted: seq<Point>)
    requires multiset(sorted) == multiset(AverageDuplicates(raw))
    ensures forall k :: 0 <= k < |sorted| ==>
      |YsAt(raw, sorted[k].x)| > 0 && sorted[k].y == Round3(Average(YsAt(raw, sorted[k].x)))
  {
    var averaged := AverageDuplicates(raw);
    forall k | 0 <= k < |sorted|
      ensures |YsAt(raw, sorted[k].x)| > 0 && sorted[k].y == Round3(Average(YsAt(raw, sorted[k].x)))
    {
      assert sorted[k] in multiset(sorted);
      assert sorted[k] in averaged;
      var m :| 0 <= m < |averaged| && averaged[m] == sorted[k];
    }
  }

  /** The series of one field in one group. */
  function FieldSeries(group: string, groupIndex: nat, multi: bool, members: seq<FileRecord>,
                       ext: seq<string>, fields: seq<string>, field: string, cfg: Config): (s: Series)
    ensures StrictlyAscending(s.points)
    ensures forall k :: 0 <= k < |s.points| ==>
      exists i :: 0 <= i < |members| && s.points[k].x == AttrOf(members[i], cfg.groupBy).num
    ensures field in ext ==> forall i :: 0 <= i < |members| ==> AttrOf(members[i], cfg.groupBy).num in Xs(s.points)
    ensures forall k :: 0 <= k < |s.points| ==>
      && |YsAt(FieldPoints(members, ext, field, cfg.groupBy), s.points[k].x)| > 0
      && s.points[k].y == Round3(Average(YsAt(FieldPoints(members, ext, field, cfg.groupBy), s.points[k].x)))
    ensures s.id == GroupedId(field, group, multi)
    ensures s.color == GroupedColor(field, groupIndex, multi, fields, cfg.min, cfg.max)
  {
    var raw := FieldPoints(members, ext, field, cfg.groupBy);
    var averaged := AverageDuplicates(raw);
    var sorted := SortByX(averaged);
    DistinctUnique(Xs(raw));
    SortByXStrict(averaged);
    SortedAbscissaeFromMembers(members, raw, sorted, field, cfg.groupBy);
    SortedCoversMembers(members, raw, sorted, field, field in ext, cfg.groupBy);
    SortedMeans(raw, sorted);
    Series(GroupedId(field, group, multi), sorted, GroupedColor(field, groupIndex, multi, fields, cfg.min, cfg.max))
  }

  /** One series per field, in field order, for the group at index groupIndex. */
  function GroupSeries(files: seq<FileRecord>, keys: seq<string>, groupIndex: nat,
                       ext: seq<string>, fields: seq<string>, cfg: Config): (r: seq<Series>)
    requires groupIndex < |keys|
    ensures |r| == |fields|
    ensures forall i :: 0 <= i < |fields| ==> r[i].id == GroupedId(fields[i], keys[groupIndex], |keys| > 1)
    ensures forall i :: 0 <= i < |fields| ==>
      r[i].color == GroupedColor(fields[i], groupIndex, |keys| > 1, fields, cfg.min, cfg.max)
    ensures forall i :: 0 <= i < |r| ==> StrictlyAscending(r[i].points)
  {
    var g := keys[groupIndex];
    var members := GroupMembers(files, cfg.sortBy, g);
    seq(|fields|, i requires 0 <= i < |fields| =>
      FieldSeries(g, groupIndex, |keys| > 1, members, ext, fields, fields[i], cfg))
  }

  /** The series of the groups from index groupIndex on, group after group. */
  function GroupsFrom(files: seq<FileRecord>, keys: seq<string>, groupIndex: nat,
                      ext: seq<string>, fields: seq<string>, cfg: Config): (r: seq<Series>)
    requires groupIndex <= |keys|
    ensures |r| == (|keys| - groupIndex) * |fields|
    ensures forall i :: 0 <= i < |r| ==> StrictlyAscending(r[i].points)
    decreases |keys| - groupIndex
  {
    if groupIndex == |keys| then []
    else
      var here := GroupSeries(files, keys, groupIndex, ext, fields, cfg);
      var rest := GroupsFrom(files, keys, groupIndex + 1, ext, fields, cfg);
      MulStep(|keys| - groupIndex, |fields|);
      AscendingConcat(here, rest);
      here + rest
  }

  /** The grouped series builder. */
  function BuildGrouped(files: seq<FileRecord>, cfg: Config): (r: seq<Series>)
    ensures |r| == |GroupKeys(FilterSelected(files, cfg.selectedFiles), cfg.sortBy)|
                 * |Distinct(ExtendedFields(cfg.selectedFields, cfg.min, cfg.max))|
    ensures forall i :: 0 <= i < |r| ==> StrictlyAscending(r[i].points)
  {
    var filtered := FilterSelected(files, cfg.selectedFiles);
    var keys := GroupKeys(filtered, cfg.sortBy);
    var ext := ExtendedFields(cfg.selectedFields, cfg.min, cfg.max);
    GroupsFrom(filtered, keys, 0, ext, Distinct(ext), cfg)
  }

  // ---------------------------------------------------------------------
  // Ids never collide
  // ---------------------------------------------------------------------

  /** The bracket that opens the group part of a multi-group id is its last one. */
  lemma GroupedIdBracket(f: string, g: string)
    requires '[' !in g
    ensures GroupedId(f, g, true)[|f| + 1] == '['
    ensures forall k :: |f| + 1 < k < |GroupedId(f, g, true)| ==> GroupedId(f, g, true)[k] != '['
  {
    var s := GroupedId(f, g, true);
    assert s == f + " [" + g + "]";
    forall k | |f| + 1 < k < |s|
      ensures s[k] != '['
    {
      if k < |s| - 1 {
        assert s[k] == g[k - |f| - 2];
      }
    }
  }

  /** Multi-group ids determine their field and group when groups contain no '['. */
  lemma GroupedIdInjective(f1: string, g1: string, f2: string, g2: string)
    requires '[' !in g1 && '[' !in g2
    requires GroupedId(f1, g1, true) == GroupedId(f2, g2, true)
    ensures f1 == f2 && g1 == g2
  {
    var s := GroupedId(f1, g1, true);
    GroupedIdBracket(f1, g1);
    GroupedIdBracket(f2, g2);
    assert |f1| == |f2|;
    assert f1 == s[..|f1|];
    assert f2 == s[..|f2|];
    assert g1 == s[|f1| + 2..|s| - 1];
    assert g2 == s[|f2| + 2..|s| - 1];
  }

  /** The ids one group gets: one per field, tagged with the group when there are several. */
  function GroupIds(fields: seq<string>, g: string, multi: bool): (ids: seq<string>)
    ensures |ids| == |fields|
    ensures forall i :: 0 <= i < |fields| ==> ids[i] == GroupedId(fields[i], g, multi)
  {
    seq(|fields|, i requires 0 <= i < |fields| => GroupedId(fields[i], g, multi))
  }

  /** The ids of the groups from groupIndex on, group after group. */
  function IdsFrom(keys: seq<string>, groupIndex: nat, fields: seq<string>): seq<string>
    requires groupIndex <= |keys|
    decreases |keys| - groupIndex
  {
    if groupIndex == |keys| then []
    else GroupIds(fields, keys[groupIndex], |keys| > 1) + IdsFrom(keys, groupIndex + 1, fields)
  }

  /** The grouped series carry exactly the ids IdsFrom lists, whatever their points. */
  lemma {:induction false} GroupsFromIds(files: seq<FileRecord>, keys: seq<string>, groupIndex: nat,
                                        ext: seq<string>, fields: seq<string>, cfg: Config)
    requires groupIndex <= |keys|
    ensures Ids(GroupsFrom(files, keys, groupIndex, ext, fields, cfg)) == IdsFrom(keys, groupIndex, fields)
    decreases |keys| - groupIndex
  {
    if groupIndex < |keys| {
      GroupsFromIds(files, keys, groupIndex + 1, ext, fields, cfg);
      GroupSeriesIds(files, keys, groupIndex, ext, fields, cfg);
      GroupsFromUnfold(files, keys, groupIndex, ext, fields, cfg);
      IdsFromStep(keys, groupIndex, fields, GroupsFrom(files, keys, groupIndex, ext, fields, cfg),
                  GroupSeries(files, keys, groupIndex, ext, fields, cfg),
                  GroupsFrom(files, keys, groupIndex + 1, ext, fields, cfg));
    }
  }

  /** One group's ids followed by the later groups' ids are the ids from that group on. */
  lemma {:induction false} IdsFromStep(keys: seq<string>, groupIndex: nat, fields: seq<string>,
                                       all: seq<Series>, here: seq<Series>, rest: seq<Series>)
    requires groupIndex < |keys|
    requires all == here + rest
    requires Ids(here) == GroupIds(fields, keys[groupIndex], |keys| > 1)
    requires Ids(rest) == IdsFrom(keys, groupIndex + 1, fields)
    ensures Ids(all) == IdsFrom(keys, groupIndex, fields)
  {
    IdsAppend(here, rest);
  }

  /** The groups from groupIndex on are that group's series followed by the later groups' series. */
  lemma GroupsFromUnfold(files: seq<FileRecord>, keys: seq<string>, groupIndex: nat,
                         ext: seq<string>, fields: seq<string>, cfg: Config)
    requires groupIndex < |keys|
    ensures GroupsFrom(files, keys, groupIndex, ext, fields, cfg) ==
      GroupSeries(files, keys, groupIndex, ext, fields, cfg) + GroupsFrom(files, keys, groupIndex + 1, ext, fields, cfg)
  {
  }

  /** The series of one group carry exactly the ids GroupIds lists. */
  lemma GroupSeriesIds(files: seq<FileRecord>, keys: seq<string>, groupIndex: nat,
                       ext: seq<string>, fields: seq<string>, cfg: Config)
    requires groupIndex < |keys|
    ensures Ids(GroupSeries(files, keys, groupIndex, ext, fields, cfg)) == GroupIds(fields, keys[groupIndex], |keys| > 1)
  {
    var here := GroupSeries(files, keys, groupIndex, ext, fields, cfg);
    var ids := GroupIds(fields, keys[groupIndex], |keys| > 1);
    assert |Ids(here)| == |ids|;
    forall i | 0 <= i < |ids|
      ensures Ids(here)[i] == ids[i]
    {
    }
  }

  /** Within one group, distinct fields give distinct ids. */
  lemma GroupIdsUnique(fields: seq<string>, g: string, multi: bool)
    requires Unique(fields)
    ensures Unique(GroupIds(fields, g, multi))
  {
    var ids := GroupIds(fields, g, multi);
    forall i, j | 0 <= i < j < |ids|
      ensures ids[i] != ids[j]
    {
      if multi {
        assert GroupedId(fields[i], g, true)[..|fields[i]|] == fields[i];
        assert GroupedId(fields[j], g, true)[..|fields[j]|] == fields[j];
      }
    }
  }

  /** An id tagged with a group that does not occur from groupIndex on is not listed from there on. */
  lemma {:induction false} IdsFromAvoidsId(keys: seq<string>, groupIndex: nat, fields: seq<string>, f: string, g: string)
    requires groupIndex <= |keys|
    requires |keys| > 1
    requires '[' !in g
    requires forall k :: 0 <= k < |keys| ==> '[' !in keys[k]
    requires g !in keys[groupIndex..]
    ensures GroupedId(f, g, true) !in IdsFrom(keys, groupIndex, fields)
    decreases |keys| - groupIndex
  {
    if groupIndex < |keys| {
      var here := GroupIds(fields, keys[groupIndex], true);
      assert keys[groupIndex + 1..] == keys[groupIndex..][1..];
      IdsFromAvoidsId(keys, groupIndex + 1, fields, f, g);
      forall i | 0 <= i < |here|
        ensures here[i] != GroupedId(f, g, true)
      {
        if here[i] == GroupedId(f, g, true) {
          GroupedIdInjective(fields[i], keys[groupIndex], f, g);
        }
      }
    }
  }

  /** A key of a repetition-free list does not occur again after its position. */
  lemma UniqueKeyNotLater(keys: seq<string>, i: nat)
    requires Unique(keys) && i < |keys|
    ensures keys[i] !in keys[i + 1..]
  {
    var later := keys[i + 1..];
    forall j | 0 <= j < |later|
      ensures later[j] != keys[i]
    {
      assert later[j] == keys[i + 1 + j];
    }
  }

  /** From groupIndex on, no id is listed twice. */
  lemma {:induction false} IdsFromUnique(keys: seq<string>, groupIndex: nat, fields: seq<string>)
    requires groupIndex <= |keys|
    requires |keys| > 1
    requires Unique(keys) && Unique(fields)
    requires forall k :: 0 <= k < |keys| ==> '[' !in keys[k]
    ensures Unique(IdsFrom(keys, groupIndex, fields))
    decreases |keys| - groupIndex
  {
    if groupIndex < |keys| {
      var here := GroupIds(fields, keys[groupIndex], true);
      var rest := IdsFrom(keys, groupIndex + 1, fields);
      GroupIdsUnique(fields, keys[groupIndex], true);
      IdsFromUnique(keys, groupIndex + 1, fields);
      GroupAvoidsLater(keys, groupIndex, fields);
      UniqueAppend(here, rest);
    }
  }

  /** If no position of a holds a value of b, no element of a is in b. */
  lemma IndexedNotInMeansNotIn(a: seq<string>, b: seq<string>)
    requires forall i :: 0 <= i < |a| ==> a[i] !in b
    ensures forall e :: e in a ==> e !in b
  {
    forall e | e in a
      ensures e !in b
    {
      var i :| 0 <= i < |a| && a[i] == e;
    }
  }

  /** No id of the group at groupIndex reappears among the later groups' ids. */
  lemma GroupAvoidsLater(keys: seq<string>, groupIndex: nat, fields: seq<string>)
    requires groupIndex < |keys|
    requires |keys| > 1
    requires Unique(keys)
    requires forall k :: 0 <= k < |keys| ==> '[' !in keys[k]
    ensures forall e :: e in GroupIds(fields, keys[groupIndex], true) ==> e !in IdsFrom(keys, groupIndex + 1, fields)
  {
    var here := GroupIds(fields, keys[groupIndex], true);
    var rest := IdsFrom(keys, groupIndex + 1, fields);
    UniqueKeyNotLater(keys, groupIndex);
    FieldIdsAvoid(keys, groupIndex + 1, fields, keys[groupIndex]);
    assert forall i :: 0 <= i < |here| ==> here[i] == GroupedId(fields[i], keys[groupIndex], true);
    IndexedNotInMeansNotIn(here, rest);
  }

  /** No field's id under key g occurs among the ids of the groups from start on, when g is not one of their keys. */
  lemma FieldIdsAvoid(keys: seq<string>, start: nat, fields: seq<string>, g: string)
    requires start <= |keys|
    requires |keys| > 1
    requires '[' !in g
    requires forall k :: 0 <= k < |keys| ==> '[' !in keys[k]
    requires g !in keys[start..]
    ensures forall i :: 0 <= i < |fields| ==> GroupedId(fields[i], g, true) !in IdsFrom(keys, start, fields)
  {
    forall i | 0 <= i < |fields|
      ensures GroupedId(fields[i], g, true) !in IdsFrom(keys, start, fields)
    {
      IdsFromAvoidsId(keys, start, fields, fields[i], g);
    }
  }

  /** The ids of the grouped builder, as a list over group keys and distinct extended fields. */
  lemma BuildGroupedIds(files: seq<FileRecord>, cfg: Config)
    ensures var filtered := FilterSelected(files, cfg.selectedFiles);
      Ids(BuildGrouped(files, cfg)) ==
        IdsFrom(GroupKeys(filtered, cfg.sortBy), 0, Distinct(ExtendedFields(cfg.selectedFields, cfg.min, cfg.max)))
  {
    var filtered := FilterSelected(files, cfg.selectedFiles);
    var ext := ExtendedFields(cfg.selectedFields, cfg.min, cfg.max);
    GroupsFromIds(filtered, GroupKeys(filtered, cfg.sortBy), 0, ext, Distinct(ext), cfg);
  }

  /** Group keys are `sortBy` renderings of selected files, so they inherit a property all of those have. */
  lemma GroupKeysNoBracket(files: seq<FileRecord>, cfg: Config)
    requires forall f :: f in files && f.name in cfg.selectedFiles ==> '[' !in AttrOf(f, cfg.sortBy).text
    ensures var keys := GroupKeys(FilterSelected(files, cfg.selectedFiles), cfg.sortBy);
      forall k :: 0 <= k < |keys| ==> '[' !in keys[k]
  {
    var filtered := FilterSelected(files, cfg.selectedFiles);
    var sk := SortKeys(filtered, cfg.sortBy);
    var keys := GroupKeys(filtered, cfg.sortBy);
    DistinctMembers(sk);
    forall k | 0 <= k < |keys|
      ensures '[' !in keys[k]
    {
      assert keys[k] in sk;
      var i :| 0 <= i < |filtered| && sk[i] == keys[k];
      assert filtered[i] in files;
    }
  }

  /**
    Grouped ids are pairwise distinct as long as no group key contains '[':
    with one group they are the distinct field names, with several they are
    `field [group]` for distinct (field, group) pairs.
   */
  lemma BuildGroupedIdsUnique(files: seq<FileRecord>, cfg: Config)
    requires forall f :: f in files && f.name in cfg.selectedFiles ==> '[' !in AttrOf(f, cfg.sortBy).text
    ensures Unique(Ids(BuildGrouped(files, cfg)))
  {
    var filtered := FilterSelected(files, cfg.selectedFiles);
    var keys := GroupKeys(filtered, cfg.sortBy);
    var ext := ExtendedFields(cfg.selectedFields, cfg.min, cfg.max);
    var fields := Distinct(ext);
    BuildGroupedIds(files, cfg);
    DistinctUnique(ext);
    DistinctUnique(SortKeys(filtered, cfg.sortBy));
    if |keys| > 1 {
      GroupKeysNoBracket(files, cfg);
      IdsFromUnique(keys, 0, fields);
    } else if |keys| == 1 {
      assert IdsFrom(keys, 0, fields) == GroupIds(fields, keys[0], false) + [];
      GroupIdsUnique(fields, keys[0], false);
    }
  }
}

=== FILE: interpolation.dfy ===
/**
  The interpolate stage. With `interpolate` off the series pass through and
  there are no tick values. With it on, every series is rebuilt point by
  point: before each point but the first come the filler points between it
  and its predecessor, then the point itself. The filler (the 0.01-step loop)
  and the tick loop are parameters; the running abscissa range the tick loop
  starts from, and the closing tick `Math.round(max * 100) / 100`, are
  modelled exactly.
 */
module Interpolation {
  import opened ChartTypes
  import opened Numeric

  /** The points pushed between a point and its successor. */
  type Filler = (Point, Point) -> seq<Point>

  /** The ticks pushed from the lowest to the highest abscissa, before the closing tick. */
  type TickLoop = (real, real) -> seq<real>

  /** The points of one series with the filler points inserted between each consecutive pair. */
  function Expand(ps: seq<Point>, fill: Filler): (r: seq<Point>)
    ensures ps == [] <==> r == []
    ensures ps != [] ==> r[0] == ps[0] && r[|r| - 1] == ps[|ps| - 1]
    ensures |r| >= |ps|
  {
    if |ps| <= 1 then ps
    else [ps[0]] + fill(ps[0], ps[1]) + Expand(ps[1..], fill)
  }

  /** Position pos[i] of b holds a[i], for every i. */
  predicate Hits(a: seq<Point>, b: seq<Point>, pos: seq<int>)
  {
    |pos| == |a| && forall i :: 0 <= i < |pos| ==> 0 <= pos[i] < |b| && b[pos[i]] == a[i]
  }

  /** The positions strictly increase. */
  predicate Increasing(pos: seq<int>)
  {
    forall i, j :: 0 <= i < j < |pos| ==> pos[i] < pos[j]
  }

  /** pos lists, in strictly increasing order, positions of b holding the elements of a, in order. */
  predicate Embeds(a: seq<Point>, b: seq<Point>, pos: seq<int>)
  {
    Hits(a, b, pos) && Increasing(pos)
  }

  /** Adds d to every position. */
  function Shift(pos: seq<int>, d: int): (r: seq<int>)
    ensures |r| == |pos|
    ensures forall i :: 0 <= i < |pos| ==> r[i] == pos[i] + d
  {
    if pos == [] then [] else [pos[0] + d] + Shift(pos[1..], d)
  }

  /** Where the original points sit in the expanded series. */
  function Positions(ps: seq<Point>, fill: Filler): (pos: seq<int>)
    ensures |pos| == |ps|
  {
    if |ps| <= 1 then (if ps == [] then [] else [0])
    else [0] + Shift(Positions(ps[1..], fill), 1 + |fill(ps[0], ps[1])|)
  }

  lemma HitsCons(a0: Point, a: seq<Point>, head: seq<Point>, rest: seq<Point>, inner: seq<int>)
    requires head != [] && head[0] == a0
    requires Hits(a, rest, inner)
    ensures Hits([a0] + a, head + rest, [0] + Shift(inner, |head|))
  {
    var pos := [0] + Shift(inner, |head|);
    var b := head + rest;
    var all := [a0] + a;
    forall i | 0 <= i < |pos|
      ensures 0 <= pos[i] < |b| && b[pos[i]] == all[i]
    {
      if i > 0 {
        var k := inner[i - 1];
        assert pos[i] == k + |head|;
        assert b[k + |head|] == rest[k];
        assert all[i] == a[i - 1];
      }
    }
  }

  lemma IncreasingCons(inner: seq<int>, d: int)
    requires d > 0
    requires Increasing(inner)
    requires forall i :: 0 <= i < |inner| ==> inner[i] >= 0
    ensures Increasing([0] + Shift(inner, d))
  {
    var pos := [0] + Shift(inner, d);
    forall i, j | 0 <= i < j < |pos|
      ensures pos[i] < pos[j]
    {
      assert pos[j] == inner[j - 1] + d;
      if i > 0 {
        assert pos[i] == inner[i - 1] + d;
      }
    }
  }

  /** Putting a block that starts with a0 before an embedding extends it by a0 at position 0. */
  lemma EmbedsCons(a0: Point, a: seq<Point>, head: seq<Point>, rest: seq<Point>, inner: seq<int>)
    requires head != [] && head[0] == a0
    requires Embeds(a, rest, inner)
    ensures Embeds([a0] + a, head + rest, [0] + Shift(inner, |head|))
  {
    HitsCons(a0, a, head, rest, inner);
    IncreasingCons(inner, |head|);
  }

  /** Every original point is re-emitted unchanged and in order: the input is a subsequence of the output. */
  lemma {:induction false} ExpandEmbeds(ps: seq<Point>, fill: Filler)
    ensures Embeds(ps, Expand(ps, fill), Positions(ps, fill))
    decreases |ps|
  {
    if |ps| > 1 {
      var tail := ps[1..];
      var head := [ps[0]] + fill(ps[0], ps[1]);
      var rest, inner := Expand(tail, fill), Positions(tail, fill);
      ExpandEmbeds(tail, fill);
      assert Expand(ps, fill) == head + rest;
      assert Positions(ps, fill) == [0] + Shift(inner, |head|);
      EmbedsJoin(ps, Expand(ps, fill), Positions(ps, fill), tail, head, rest, inner);
    }
  }

  /** The embedding of a series whose first point starts a block placed before the embedding of the rest. */
  lemma EmbedsJoin(ps: seq<Point>, all: seq<Point>, pos: seq<int>,
                   tail: seq<Point>, head: seq<Point>, rest: seq<Point>, inner: seq<int>)
    requires ps != [] && tail == ps[1..]
    requires head != [] && head[0] == ps[0]
    requires all == head + rest && pos == [0] + Shift(inner, |head|)
    requires Embeds(tail, rest, inner)
    ensures Embeds(ps, all, pos)
  {
    EmbedsCons(ps[0], tail, head, rest, inner);
    assert ps == [ps[0]] + tail;
  }

  /** A filler that adds nothing leaves the series as it was. */
  lemma {:induction false} ExpandWithoutFill(ps: seq<Point>, fill: Filler)
    requires forall p, q :: fill(p, q) == []
    ensures Expand(ps, fill) == ps
    decreases |ps|
  {
    if |ps| > 1 {
      var tail := ps[1..];
      ExpandWithoutFill(tail, fill);
      var gap := fill(ps[0], ps[1]);
      assert gap == [];
      assert Expand(ps, fill) == [ps[0]] + gap + Expand(tail, fill);
      assert [ps[0]] + tail == ps;
    }
  }

  /** The lowest abscissa the stage tracks: `min = x < min ? x : min` from 0, over every point of every series. */
  function LowX(data: seq<Series>): (lo: real)
    ensures lo <= 0.0
    ensures forall i, k :: 0 <= i < |data| && 0 <= k < |data[i].points| ==> lo <= data[i].points[k].x
    ensures lo == 0.0 || exists i, k :: 0 <= i < |data| && 0 <= k < |data[i].points| && lo == data[i].points[k].x
  {
    if data == [] then 0.0
    else
      var rest := LowX(data[1..]);
      var here := LowOf(data[0].points, rest);
      assert forall i :: 1 <= i < |data| ==> data[i] == data[1..][i - 1];
      here
  }

  /** Folds `x < min ? x : min` over points, from start. */
  function LowOf(ps: seq<Point>, start: real): (lo: real)
    ensures lo <= start
    ensures forall k :: 0 <= k < |ps| ==> lo <= ps[k].x
    ensures lo == start || exists k :: 0 <= k < |ps| && lo == ps[k].x
  {
    if ps == [] then start
    else
      var rest := LowOf(ps[1..], if ps[0].x < start then ps[0].x else start);
      assert forall k :: 1 <= k < |ps| ==> ps[k] == ps[1..][k - 1];
      rest
  }

  /** The highest abscissa the stage tracks: `max = x > max ? x : max` from 0, over every point of every series. */
  function HighX(data: seq<Series>): (hi: real)
    ensures hi >= 0.0
    ensures forall i, k :: 0 <= i < |data| && 0 <= k < |data[i].points| ==> data[i].points[k].x <= hi
    ensures hi == 0.0 || exists i, k :: 0 <= i < |data| && 0 <= k < |data[i].points| && hi == data[i].points[k].x
  {
    if data == [] then 0.0
    else
      var rest := HighX(data[1..]);
      var here := HighOf(data[0].points, rest);
      assert forall i :: 1 <= i < |data| ==> data[i] == data[1..][i - 1];
      here
  }

  /** Folds `x > max ? x : max` over points, from start. */
  function HighOf(ps: seq<Point>, start: real): (hi: real)
    ensures hi >= start
    ensures forall k :: 0 <= k < |ps| ==> ps[k].x <= hi
    ensures hi == start || exists k :: 0 <= k < |ps| && hi == ps[k].x
  {
    if ps == [] then start
    else
      var rest := HighOf(ps[1..], if ps[0].x > start then ps[0].x else start);
      assert forall k :: 1 <= k < |ps| ==> ps[k] == ps[1..][k - 1];
      rest
  }

  /** The series and tick values the stage hands on. */
  datatype Plot = Plot(data: seq<Series>, tickValues: seq<real>)

  /** Expands every series, keeping its id and colour. */
  function ExpandAll(data: seq<Series>, fill: Filler): (r: seq<Series>)
    ensures |r| == |data|
    ensures forall i :: 0 <= i < |data| ==>
      && r[i].id == data[i].id
      && r[i].color == data[i].color
      && r[i].points == Expand(data[i].points, fill)
      && Embeds(data[i].points, r[i].points, Positions(data[i].points, fill))
  {
    if data == [] then []
    else
      ExpandEmbeds(data[0].points, fill);
      var rest := ExpandAll(data[1..], fill);
      assert forall i :: 1 <= i < |data| ==> data[i] == data[1..][i - 1];
      [data[0].(points := Expand(data[0].points, fill))] + rest
  }

  /** The interpolate stage. */
  function Interpolate(data: seq<Series>, on: bool, fill: Filler, ticks: TickLoop): (r: Plot)
    ensures !on ==> r == Plot(data, [])
    ensures on ==> |r.data| == |data| && Ids(r.data) == Ids(data)
    ensures on ==> forall i :: 0 <= i < |data| ==>
      && r.data[i].color == data[i].color
      && Embeds(data[i].points, r.data[i].points, Positions(data[i].points, fill))
    ensures on ==> |r.tickValues| >= 1 && r.tickValues[|r.tickValues| - 1] == Round2(HighX(data))
    ensures on ==> r.tickValues[..|r.tickValues| - 1] == ticks(LowX(data), HighX(data))
  {
    if !on then Plot(data, [])
    else
      var lo := LowX(data);
      var hi := HighX(data);
      var t := ticks(lo, hi) + [Round2(hi)];
      assert t[..|t| - 1] == ticks(lo, hi);
      Plot(ExpandAll(data, fill), t)
  }

  /**
    The closing tick is never negative and is at least the rounded abscissa
    of every point, so the axis always reaches the right end of the data.
   */
  lemma ClosingTickCoversData(data: seq<Series>, on: bool, fill: Filler, ticks: TickLoop, i: nat, k: nat)
    requires on
    requires i < |data| && k < |data[i].points|
    ensures var t := Interpolate(data, on, fill, ticks).tickValues;
      0.0 <= t[|t| - 1] && Round2(data[i].points[k].x) <= t[|t| - 1]
  {
    var hi := HighX(data);
    RoundToMonotone(0.0, hi, 100.0);
    RoundToOnGrid(0.0, 100.0);
    RoundToMonotone(data[i].points[k].x, hi, 100.0);
  }

  /** With a filler that adds nothing, switching the stage on changes only the tick values. */
  lemma {:induction false} InterpolateWithoutFill(data: seq<Series>, fill: Filler, ticks: TickLoop)
    requires forall p, q :: fill(p, q) == []
    ensures Interpolate(data, true, fill, ticks).data == data
  {
    var r := Interpolate(data, true, fill, ticks).data;
    forall i | 0 <= i < |data|
      ensures r[i] == data[i]
    {
      SeriesWithoutFill(data[i], r[i], fill);
    }
  }

  /** A series rebuilt with a filler that adds nothing, keeping id and colour, is the series itself. */
  lemma SeriesWithoutFill(d: Series, e: Series, fill: Filler)
    requires forall p, q :: fill(p, q) == []
    requires e.id == d.id && e.color == d.color && e.points == Expand(d.points, fill)
    ensures e == d
  {
    ExpandWithoutFill(d.points, fill);
  }
}

=== FILE: numeric.dfy ===
/**
  The arithmetic the chart pipeline relies on, over exact reals: JavaScript's
  `Math.round`, rounding to a fixed number of decimals, sums, means and the
  extremes of a list.
 */
module Numeric {

  /** `Math.round(r)`: round half up, the unique integer in (r - 1/2, r + 1/2]. */
  function Round(r: real): (n: int)
    ensures r - 0.5 < n as real <= r + 0.5
  {
    (r + 0.5).Floor
  }

  /** An integer within half a unit below or exactly half above is the rounding of r. */
  lemma RoundUnique(r: real, n: int)
    requires r - 0.5 < n as real <= r + 0.5
    ensures Round(r) == n
  {
  }

  lemma RoundMonotone(a: real, b: real)
    requires a <= b
    ensures Round(a) <= Round(b)
  {
  }

  /** q lies on the grid of multiples of 1/k. */
  predicate OnGrid(q: real, k: real)
  {
    (q * k).Floor as real == q * k
  }

  /** `Math.round(r * k) / k`: r rounded half up to the nearest multiple of 1/k. */
  function RoundTo(r: real, k: real): (q: real)
    requires k > 0.0
    ensures r - 0.5 / k < q <= r + 0.5 / k
    ensures OnGrid(q, k)
  {
    var n := Round(r * k);
    var v := n as real / k;
    assert v * k == n as real;
    assert OnGrid(v, k);
    v
  }

  /** A value already on the grid is left alone by rounding to it. */
  lemma RoundToOnGrid(q: real, k: real)
    requires k > 0.0
    requires OnGrid(q, k)
    ensures RoundTo(q, k) == q
  {
    var n := (q * k).Floor;
    RoundUnique(q * k, n);
    assert q == n as real / k;
  }

  lemma RoundToIdempotent(r: real, k: real)
    requires k > 0.0
    ensures RoundTo(RoundTo(r, k), k) == RoundTo(r, k)
  {
    RoundToOnGrid(RoundTo(r, k), k);
  }

  lemma RoundToMonotone(a: real, b: real, k: real)
    requires k > 0.0
    requires a <= b
    ensures RoundTo(a, k) <= RoundTo(b, k)
  {
    assert (b - a) * k >= 0.0;
    RoundMonotone(a * k, b * k);
  }

  /** Rounding to 3 decimals, `Math.round(r * 1000) / 1000`. */
  function Round3(r: real): (q: real)
    ensures r - 0.0005 < q <= r + 0.0005
    ensures OnGrid(q, 1000.0)
  {
    RoundTo(r, 1000.0)
  }

  /** Rounding to 2 decimals, `Math.round(r * 100) / 100`. */
  function Round2(r: real): (q: real)
    ensures r - 0.005 < q <= r + 0.005
    ensures OnGrid(q, 100.0)
  {
    RoundTo(r, 100.0)
  }

  /** `s.reduce((acc, v) => acc + v, 0)` over exact reals. */
  function Sum(s: seq<real>): real
  {
    if s == [] then 0.0 else s[0] + Sum(s[1..])
  }

  lemma {:induction false} SumAppend(a: seq<real>, b: seq<real>)
    ensures Sum(a + b) == Sum(a) + Sum(b)
    decreases |a|
  {
    if a == [] {
      assert a + b == b;
    } else {
      assert (a + b)[1..] == a[1..] + b;
      SumAppend(a[1..], b);
    }
  }

  /** The sum does not depend on where the last element is placed. */
  lemma SumRotate(a: seq<real>, v: real)
    ensures Sum(a + [v]) == Sum([v] + a)
  {
    SumAppend(a, [v]);
    SumAppend([v], a);
  }

  /** The arithmetic mean of a non-empty list. */
  function Average(vs: seq<real>): (m: real)
    requires |vs| > 0
    ensures MinOf(vs) <= m <= MaxOf(vs)
  {
    MeanBetween(vs);
    Sum(vs) / (|vs| as real)
  }

  /** The sum divided by the count lies between the smallest and the largest element. */
  lemma {:induction false} MeanBetween(vs: seq<real>)
    requires |vs| > 0
    ensures MinOf(vs) <= Sum(vs) / (|vs| as real) <= MaxOf(vs)
  {
    MeanWithin(vs, MinOf(vs), MaxOf(vs));
  }

  /** Bounds on every element bound the mean. */
  lemma {:induction false} MeanWithin(vs: seq<real>, lo: real, hi: real)
    requires |vs| > 0
    requires forall i :: 0 <= i < |vs| ==> lo <= vs[i] <= hi
    ensures lo <= Sum(vs) / (|vs| as real) <= hi
  {
    var n, total := |vs| as real, Sum(vs);
    SumBetween(vs, lo, hi);
    QuotientBetween(total, n, lo, hi);
  }

  lemma QuotientBetween(total: real, n: real, lo: real, hi: real)
    requires n > 0.0
    requires n * lo <= total <= n * hi
    ensures lo <= total / n <= hi
  {
    assert total / n - lo == (total - n * lo) / n;
    assert hi - total / n == (n * hi - total) / n;
  }

  /** Every element between lo and hi bounds the sum by |s|*lo and |s|*hi. */
  lemma {:induction false} SumBetween(s: seq<real>, lo: real, hi: real)
    requires forall i :: 0 <= i < |s| ==> lo <= s[i] <= hi
    ensures (|s| as real) * lo <= Sum(s) <= (|s| as real) * hi
    decreases |s|
  {
    if s != [] {
      SumBetween(s[1..], lo, hi);
    }
  }

  /** `reduce((p, c, i, a) => p + c / a.length, 0)`: each term divided by n before adding. */
  function SumScaled(s: seq<real>, n: real): real
    requires n > 0.0
  {
    if s == [] then 0.0 else s[0] / n + SumScaled(s[1..], n)
  }

  lemma {:induction false} SumScaledIsSumOver(s: seq<real>, n: real)
    requires n > 0.0
    ensures SumScaled(s, n) == Sum(s) / n
    decreases |s|
  {
    if s != [] {
      SumScaledIsSumOver(s[1..], n);
    }
  }

  /** The mean of a sample list as the grouped builder computes it: 0 for an empty list. */
  function SampleMean(samples: seq<real>): (m: real)
    ensures samples == [] ==> m == 0.0
    ensures samples != [] ==> m == Average(samples)
  {
    if samples == [] then 0.0
    else
      SumScaledIsSumOver(samples, |samples| as real);
      SumScaled(samples, |samples| as real)
  }

  /** `Math.min(...s)` for a non-empty list. */
  function MinOf(s: seq<real>): (m: real)
    requires |s| > 0
    ensures m in s
    ensures forall i :: 0 <= i < |s| ==> m <= s[i]
  {
    if |s| == 1 then s[0]
    else
      var rest := MinOf(s[1..]);
      if s[0] <= rest then s[0] else rest
  }

  /** `Math.max(...s)` for a non-empty list. */
  function MaxOf(s: seq<real>): (m: real)
    requires |s| > 0
    ensures m in s
    ensures forall i :: 0 <= i < |s| ==> s[i] <= m
  {
    if |s| == 1 then s[0]
    else
      var rest := MaxOf(s[1..]);
      if s[0] >= rest then s[0] else rest
  }
}

=== FILE: pipeline.dfy ===
/**
  The whole chart data pipeline: the series builder (grouped or ungrouped),
  then the scale stage, the length equaliser and the interpolate stage, as
  plain composed functions.
 */
module Pipeline {
  import opened ChartTypes
  import opened Sorting
  import opened Selection
  import opened Grouped
  import opened Ungrouped
  import opened Scaling
  import opened Equaliser
  import opened Interpolation

  /** The series builder: grouped when `groupBy` is set, ungrouped otherwise. */
  function BuildSeries(files: seq<FileRecord>, cfg: Config): (r: seq<Series>)
    ensures cfg.groupBy != "" ==> forall i :: 0 <= i < |r| ==> StrictlyAscending(r[i].points)
    ensures cfg.groupBy == "" ==> forall i :: 0 <= i < |r| ==> OneBased(r[i].points)
  {
    if cfg.groupBy != "" then BuildGrouped(files, cfg) else BuildUngrouped(files, cfg)
  }

  /** The series after the scale and equaliser stages, before interpolation. */
  function Prepared(files: seq<FileRecord>, cfg: Config): seq<Series>
  {
    Equalise(Scale(BuildSeries(files, cfg), cfg.scale), |files|, cfg.groupBy)
  }

  /** The props handed to the renderer. */
  function Render(files: seq<FileRecord>, cfg: Config, fill: Filler, ticks: TickLoop): (p: ChartProps)
    ensures |p.data| == |BuildSeries(files, cfg)|
    ensures Ids(p.data) == Ids(BuildSeries(files, cfg))
    ensures forall i :: 0 <= i < |p.data| ==> p.data[i].color == BuildSeries(files, cfg)[i].color
    ensures !cfg.interpolate ==> p.tickValues == []
    ensures cfg.interpolate ==> |p.tickValues| >= 1
    ensures p.large <==> |cfg.selectedFiles| > 1
  {
    var built := BuildSeries(files, cfg);
    var scaled := Scale(built, cfg.scale);
    var cut := Equalise(scaled, |files|, cfg.groupBy);
    var plot := Interpolate(cut, cfg.interpolate, fill, ticks);
    ScaleFrame(built, cfg.scale);
    EqualiseFrame(scaled, |files|, cfg.groupBy);
    InterpolateFrame(cut, cfg.interpolate, fill, ticks);
    SameFrameTrans(built, scaled, cut);
    SameFrameTrans(built, cut, plot.data);
    ChartProps(plot.data, plot.tickValues, Large(cfg))
  }

  /** b has as many series as a, with the same ids and colours in the same order. */
  predicate SameFrame(a: seq<Series>, b: seq<Series>)
  {
    && |b| == |a|
    && Ids(b) == Ids(a)
    && forall i :: 0 <= i < |a| ==> b[i].color == a[i].color
  }

  lemma SameFrameTrans(a: seq<Series>, b: seq<Series>, c: seq<Series>)
    requires SameFrame(a, b) && SameFrame(b, c)
    ensures SameFrame(a, c)
  {
  }

  /** The scale stage keeps the frame of the data. */
  lemma ScaleFrame(data: seq<Series>, on: bool)
    ensures SameFrame(data, Scale(data, on))
  {
    var r := Scale(data, on);
    if on {
      forall i | 0 <= i < |data|
        ensures r[i].color == data[i].color
      {
        assert r[i] == ScaleSeries(data[i]);
      }
    }
  }

  /** The equaliser keeps the frame of the data. */
  lemma EqualiseFrame(data: seq<Series>, filesCount: nat, groupBy: string)
    ensures SameFrame(data, Equalise(data, filesCount, groupBy))
  {
    var r := Equalise(data, filesCount, groupBy);
    assert |Ids(r)| == |Ids(data)|;
    assert forall i :: 0 <= i < |r| ==> Ids(r)[i] == r[i].id == data[i].id == Ids(data)[i];
  }

  /** The interpolate stage keeps the frame of the data. */
  lemma InterpolateFrame(data: seq<Series>, on: bool, fill: Filler, ticks: TickLoop)
    ensures SameFrame(data, Interpolate(data, on, fill, ticks).data)
  {
  }

  /** With every switch off and a single loaded file, the renderer gets the built series unchanged. */
  lemma RenderPassThrough(files: seq<FileRecord>, cfg: Config, fill: Filler, ticks: TickLoop)
    requires !cfg.scale && !cfg.interpolate
    requires |files| == 1 || cfg.groupBy != ""
    ensures Render(files, cfg, fill, ticks).data == BuildSeries(files, cfg)
  {
  }

  /** Two point sequences with the same abscissae are strictly ascending together. */
  lemma AscendingByXs(a: seq<Point>, b: seq<Point>)
    requires Xs(a) == Xs(b)
    requires StrictlyAscending(a)
    ensures StrictlyAscending(b)
  {
    forall i, j | 0 <= i < j < |b|
      ensures b[i].x < b[j].x
    {
      assert Xs(a)[i] == a[i].x && Xs(a)[j] == a[j].x;
    }
  }

  /** Two point sequences with the same abscissae are one-based together. */
  lemma OneBasedByXs(a: seq<Point>, b: seq<Point>)
    requires Xs(a) == Xs(b)
    requires OneBased(a)
    ensures OneBased(b)
  {
    forall k | 0 <= k < |b|
      ensures b[k].x == (k + 1) as real
    {
      assert Xs(a)[k] == a[k].x;
    }
  }

  /** A grouped chart without interpolation reaches the renderer with every series strictly ascending in x. */
  lemma GroupedRenderAscending(files: seq<FileRecord>, cfg: Config, fill: Filler, ticks: TickLoop)
    requires cfg.groupBy != "" && !cfg.interpolate
    ensures var d := Render(files, cfg, fill, ticks).data;
      forall i :: 0 <= i < |d| ==> StrictlyAscending(d[i].points)
  {
    var built := BuildSeries(files, cfg);
    var scaled := Scale(built, cfg.scale);
    var d := Render(files, cfg, fill, ticks).data;
    assert d == scaled;
    forall i | 0 <= i < |d|
      ensures StrictlyAscending(d[i].points)
    {
      if cfg.scale {
        AscendingByXs(built[i].points, d[i].points);
      }
    }
  }

  /** An ungrouped chart without interpolation reaches the renderer with abscissae 1, 2, 3, ... in every series. */
  lemma UngroupedRenderOneBased(files: seq<FileRecord>, cfg: Config, fill: Filler, ticks: TickLoop)
    requires cfg.groupBy == "" && !cfg.interpolate
    ensures var d := Render(files, cfg, fill, ticks).data;
      forall i :: 0 <= i < |d| ==> OneBased(d[i].points)
  {
    var built := BuildSeries(files, cfg);
    var scaled := Scale(built, cfg.scale);
    var d := Render(files, cfg, fill, ticks).data;
    assert d == Equalise(scaled, |files|, cfg.groupBy);
    forall i | 0 <= i < |d|
      ensures OneBased(d[i].points)
    {
      if cfg.scale {
        OneBasedByXs(built[i].points, scaled[i].points);
      }
      assert d[i].points <= scaled[i].points;
      forall k | 0 <= k < |d[i].points|
        ensures d[i].points[k].x == (k + 1) as real
      {
        assert d[i].points[k] == scaled[i].points[k];
      }
    }
  }

  /**
    With interpolation on, every rendered series holds, in order and
    unchanged, a prefix of its scaled series.
   */
  lemma RenderKeepsScaledPrefix(files: seq<FileRecord>, cfg: Config, fill: Filler, ticks: TickLoop, i: nat)
    requires cfg.interpolate
    requires i < |BuildSeries(files, cfg)|
    ensures var scaled := Scale(BuildSeries(files, cfg), cfg.scale)[i].points;
      var kept := Prepared(files, cfg)[i].points;
      && kept <= scaled
      && Embeds(kept, Render(files, cfg, fill, ticks).data[i].points, Positions(kept, fill))
  {
  }
}

=== FILE: scaling.dfy ===
/**
  The scale stage: with `scale` on, every series is mapped linearly so that
  its lowest value becomes 0 and its highest 100, rounded to two decimals. A
  series whose values are all equal, or which is empty, is left as it is.
 */
module Scaling {
  import opened ChartTypes
  import opened Numeric

  /** `Math.round(((y - lowest) / range) * 10000) / 100` */
  function ScaledY(y: real, lowest: real, range: real): (v: real)
    requires range > 0.0
    ensures OnGrid(v, 100.0)
  {
    Round2(((y - lowest) / range) * 100.0)
  }

  /** Values inside [lowest, lowest + range] land inside [0, 100]. */
  lemma ScaledYBounds(y: real, lowest: real, range: real)
    requires range > 0.0
    requires lowest <= y <= lowest + range
    ensures 0.0 <= ScaledY(y, lowest, range) <= 100.0
  {
    var q := ((y - lowest) / range) * 100.0;
    assert 0.0 <= q <= 100.0 by {
      assert (y - lowest) / range <= 1.0;
    }
    RoundToMonotone(0.0, q, 100.0);
    RoundToMonotone(q, 100.0, 100.0);
    RoundToOnGrid(0.0, 100.0);
    assert OnGrid(100.0, 100.0) by { assert 100.0 * 100.0 == 10000 as real; }
    RoundToOnGrid(100.0, 100.0);
  }

  /** The lowest value maps to 0 and the highest to 100. */
  lemma ScaledYEnds(lowest: real, range: real)
    requires range > 0.0
    ensures ScaledY(lowest, lowest, range) == 0.0
    ensures ScaledY(lowest + range, lowest, range) == 100.0
  {
    RoundToOnGrid(0.0, 100.0);
    assert ((lowest + range - lowest) / range) * 100.0 == 100.0;
    assert OnGrid(100.0, 100.0) by { assert 100.0 * 100.0 == 10000 as real; }
    RoundToOnGrid(100.0, 100.0);
  }

  /** Scaling never swaps the order of two values. */
  lemma ScaledYMonotone(a: real, b: real, lowest: real, range: real)
    requires range > 0.0
    requires a <= b
    ensures ScaledY(a, lowest, range) <= ScaledY(b, lowest, range)
  {
    assert (a - lowest) / range <= (b - lowest) / range;
    RoundToMonotone(((a - lowest) / range) * 100.0, ((b - lowest) / range) * 100.0, 100.0);
  }

  /** Maps every point's ordinate through ScaledY, keeping its abscissa. */
  function ScalePoints(ps: seq<Point>, lowest: real, range: real): (r: seq<Point>)
    requires range > 0.0
    ensures |r| == |ps|
    ensures forall i :: 0 <= i < |ps| ==> r[i] == Point(ps[i].x, ScaledY(ps[i].y, lowest, range))
  {
    if ps == [] then [] else [Point(ps[0].x, ScaledY(ps[0].y, lowest, range))] + ScalePoints(ps[1..], lowest, range)
  }

  /** The spread `max - min` of a series' values; 0 for an empty one. */
  function Spread(s: Series): real
  {
    if s.points == [] then 0.0 else MaxOf(Ys(s.points)) - MinOf(Ys(s.points))
  }

  /**
    One series through the scale stage. A zero spread (which an empty series
    also has) keeps every y; otherwise each y is scaled from the lowest value
    over the spread.
   */
  function ScaleSeries(s: Series): (r: Series)
    ensures r.id == s.id && r.color == s.color
    ensures Xs(r.points) == Xs(s.points)
    ensures Spread(s) == 0.0 ==> r == s
    ensures Spread(s) != 0.0 ==> forall i :: 0 <= i < |r.points| ==> OnGrid(r.points[i].y, 100.0)
  {
    if Spread(s) == 0.0 then s
    else s.(points := ScalePoints(s.points, MinOf(Ys(s.points)), Spread(s)))
  }

  /** A series with a spread is scaled point by point from its lowest value over its spread. */
  lemma ScaleSeriesUnfold(s: Series)
    requires Spread(s) != 0.0
    ensures s.points != []
    ensures ScaleSeries(s).points == ScalePoints(s.points, MinOf(Ys(s.points)), Spread(s))
  {
  }

  /** After scaling a series with a spread, no value lies outside [0, 100]. */
  lemma ScaleSeriesBounds(s: Series)
    requires Spread(s) != 0.0
    ensures var r := ScaleSeries(s).points;
      forall i :: 0 <= i < |r| ==> 0.0 <= r[i].y <= 100.0
  {
    var ys := Ys(s.points);
    var lowest := MinOf(ys);
    var range := Spread(s);
    ScaleSeriesUnfold(s);
    var r := ScalePoints(s.points, lowest, range);
    forall i | 0 <= i < |r|
      ensures 0.0 <= r[i].y <= 100.0
    {
      assert ys[i] == s.points[i].y;
      ScaledYBounds(s.points[i].y, lowest, range);
    }
  }

  /** After scaling a series with a spread, both 0 and 100 occur among its values. */
  lemma ScaleSeriesHitsEnds(s: Series)
    requires Spread(s) != 0.0
    ensures var r := ScaleSeries(s).points;
      && (exists i :: 0 <= i < |r| && r[i].y == 0.0)
      && (exists i :: 0 <= i < |r| && r[i].y == 100.0)
  {
    var ys := Ys(s.points);
    ScaleSeriesUnfold(s);
    var lo :| 0 <= lo < |ys| && ys[lo] == MinOf(ys);
    var hi :| 0 <= hi < |ys| && ys[hi] == MaxOf(ys);
    ScaledPointAt(s.points, MinOf(ys), Spread(s), lo, 0.0);
    ScaledPointAt(s.points, MinOf(ys), Spread(s), hi, Spread(s));
  }

  /** The point at index k scales to 0 when its value is the lowest, and to 100 when it is the lowest plus the spread. */
  lemma ScaledPointAt(ps: seq<Point>, lowest: real, range: real, k: nat, offset: real)
    requires range > 0.0
    requires k < |ps|
    requires offset == 0.0 || offset == range
    requires ps[k].y == lowest + offset
    ensures ScalePoints(ps, lowest, range)[k].y == if offset == 0.0 then 0.0 else 100.0
  {
    ScaledYEnds(lowest, range);
    assert lowest + 0.0 == lowest;
  }

  /** Scaling keeps the order of any two values of a series. */
  lemma ScaleSeriesMonotone(s: Series, i: nat, j: nat)
    requires i < |s.points| && j < |s.points|
    requires s.points[i].y <= s.points[j].y
    ensures ScaleSeries(s).points[i].y <= ScaleSeries(s).points[j].y
  {
    if Spread(s) != 0.0 {
      var ys := Ys(s.points);
      ScaledYMonotone(s.points[i].y, s.points[j].y, MinOf(ys), MaxOf(ys) - MinOf(ys));
    }
  }

  /** A series whose values lie in [0, 100] and include 0 and 100 has lowest value 0 and spread 100. */
  lemma ExtremesOfFilled(r: Series, a: nat, b: nat)
    requires forall i :: 0 <= i < |r.points| ==> 0.0 <= r.points[i].y <= 100.0
    requires a < |r.points| && r.points[a].y == 0.0
    requires b < |r.points| && r.points[b].y == 100.0
    ensures MinOf(Ys(r.points)) == 0.0 && Spread(r) == 100.0
  {
    var ys := Ys(r.points);
    assert MinOf(ys) <= ys[a];
    assert MaxOf(ys) >= ys[b];
  }

  /** A value already on the two-decimal grid is a fixed point of scaling over [0, 100]. */
  lemma ScaledYFixed(y: real)
    requires OnGrid(y, 100.0)
    ensures ScaledY(y, 0.0, 100.0) == y
  {
    assert ((y - 0.0) / 100.0) * 100.0 == y;
    RoundToOnGrid(y, 100.0);
  }

  /** A scaled series with a spread runs from exactly 0 to exactly 100. */
  lemma ScaledSpread(s: Series)
    requires Spread(s) != 0.0
    ensures var r := ScaleSeries(s);
      r.points != [] && MinOf(Ys(r.points)) == 0.0 && Spread(r) == 100.0
  {
    var r := ScaleSeries(s);
    ScaleSeriesBounds(s);
    ScaleSeriesHitsEnds(s);
    var a :| 0 <= a < |r.points| && r.points[a].y == 0.0;
    var b :| 0 <= b < |r.points| && r.points[b].y == 100.0;
    ExtremesOfFilled(r, a, b);
  }

  /** A series on the two-decimal grid running from 0 to 100 is a fixed point of scaling. */
  lemma ScaleSeriesFixed(r: Series)
    requires r.points != [] && MinOf(Ys(r.points)) == 0.0 && Spread(r) == 100.0
    requires forall i :: 0 <= i < |r.points| ==> OnGrid(r.points[i].y, 100.0)
    ensures ScaleSeries(r) == r
  {
    ScaleSeriesUnfold(r);
    var again := ScalePoints(r.points, 0.0, 100.0);
    forall i | 0 <= i < |r.points|
      ensures again[i] == r.points[i]
    {
      ScaledYFixed(r.points[i].y);
    }
    assert again == r.points;
  }

  /** Scaling an already scaled series changes nothing. */
  lemma ScaleSeriesIdempotent(s: Series)
    ensures ScaleSeries(ScaleSeries(s)) == ScaleSeries(s)
  {
    if Spread(s) != 0.0 {
      ScaledSpread(s);
      ScaleSeriesFixed(ScaleSeries(s));
    }
  }

  /** The scale stage over all series. */
  function Scale(data: seq<Series>, on: bool): (r: seq<Series>)
    ensures |r| == |data|
    ensures Ids(r) == Ids(data)
    ensures !on ==> r == data
    ensures on ==> forall i :: 0 <= i < |data| ==> r[i] == ScaleSeries(data[i])
  {
    if !on || data == [] then data else [ScaleSeries(data[0])] + Scale(data[1..], on)
  }

  /** Running the scale stage twice is the same as running it once. */
  lemma ScaleIdempotent(data: seq<Series>, on: bool)
    ensures Scale(Scale(data, on), on) == Scale(data, on)
  {
    var once := Scale(data, on);
    var twice := Scale(once, on);
    forall i | 0 <= i < |data|
      ensures twice[i] == once[i]
    {
      if on {
        ScaleSeriesIdempotent(data[i]);
      }
    }
  }
}

=== FILE: selection.dfy ===
/**
  The file selection both series-builder modes start from:
  `files.filter(file => selectedFiles.includes(file.name))`, and the
  `large` flag the renderer and the ungrouped ids use.
 */
module Selection {
  import opened ChartTypes

  /** The loaded files whose name is selected, in the order they were loaded. */
  function FilterSelected(files: seq<FileRecord>, selected: seq<string>): (r: seq<FileRecord>)
    ensures |r| <= |files|
    ensures forall i :: 0 <= i < |r| ==> r[i] in files && r[i].name in selected
    ensures forall i :: 0 <= i < |files| && files[i].name in selected ==> files[i] in r
  {
    if files == [] then []
    else if files[0].name in selected then [files[0]] + FilterSelected(files[1..], selected)
    else FilterSelected(files[1..], selected)
  }

  /** Filtering distributes over concatenation, so the loaded order is kept. */
  lemma {:induction false} FilterSelectedAppend(a: seq<FileRecord>, b: seq<FileRecord>, selected: seq<string>)
    ensures FilterSelected(a + b, selected) == FilterSelected(a, selected) + FilterSelected(b, selected)
    decreases |a|
  {
    if a == [] {
      assert a + b == b;
    } else {
      assert (a + b)[1..] == a[1..] + b;
      FilterSelectedAppend(a[1..], b, selected);
    }
  }

  /** `large: selectedFiles.length > 1` */
  function Large(cfg: Config): bool
  {
    |cfg.selectedFiles| > 1
  }
}

=== FILE: seqs.dfy ===
/**
  Sequence helpers with JavaScript array meaning: `findIndex` with `===`,
  `filter(v => v !== x)`, and the first-occurrence key order that
  `Object.keys` gives for keys inserted one by one.
 */
module Seqs {

  /** No element occurs twice. */
  predicate Unique<T(==)>(s: seq<T>)
  {
    forall i, j :: 0 <= i < j < |s| ==> s[i] != s[j]
  }

  /** `s.findIndex(e => e === v)`: the first position holding v, or -1. */
  function FindIndex<T(==)>(s: seq<T>, v: T): (i: int)
    ensures -1 <= i < |s|
    ensures i == -1 <==> v !in s
    ensures 0 <= i ==> s[i] == v && v !in s[..i]
  {
    if s == [] then -1
    else if s[0] == v then 0
    else
      var j := FindIndex(s[1..], v);
      if j < 0 then -1
      else
        assert s[..j + 1] == [s[0]] + s[1..][..j];
        j + 1
  }

  /** `s.filter(e => e !== v)` */
  function Without<T(==,!new)>(s: seq<T>, v: T): (r: seq<T>)
    ensures |r| <= |s|
    ensures forall e :: e in r <==> e in s && e != v
  {
    if s == [] then []
    else if s[0] == v then Without(s[1..], v)
    else [s[0]] + Without(s[1..], v)
  }

  /** Removing v keeps the relative order of first occurrences of the other elements. */
  lemma {:induction false} WithoutKeepsOrder<T(!new)>(t: seq<T>, v: T, a: T, b: T)
    requires a in Without(t, v) && b in Without(t, v)
    requires FindIndex(Without(t, v), a) < FindIndex(Without(t, v), b)
    ensures FindIndex(t, a) < FindIndex(t, b)
    decreases |t|
  {
    var w := Without(t, v);
    if t[0] == v {
      WithoutKeepsOrder(t[1..], v, a, b);
    } else if a != t[0] {
      assert w == [t[0]] + Without(t[1..], v);
      assert b != t[0];
      WithoutKeepsOrder(t[1..], v, a, b);
    }
  }

  /**
    The distinct elements of s in the order of their first occurrence, as
    `Object.keys` lists keys inserted from s one after the other.
   */
  function Distinct<T(==,!new)>(s: seq<T>): (r: seq<T>)
    ensures |r| <= |s|
    ensures s != [] ==> |r| > 0 && r[0] == s[0]
    decreases |s|
  {
    if s == [] then [] else [s[0]] + Distinct(Without(s[1..], s[0]))
  }

  /** Distinct keeps exactly the elements of s. */
  lemma {:induction false} DistinctMembers<T(!new)>(s: seq<T>)
    ensures forall i :: 0 <= i < |Distinct(s)| ==> Distinct(s)[i] in s
    ensures forall i :: 0 <= i < |s| ==> s[i] in Distinct(s)
    decreases |s|
  {
    if s != [] {
      var w := Without(s[1..], s[0]);
      DistinctMembers(w);
      var r := Distinct(s);
      assert r == [s[0]] + Distinct(w);
      forall i | 0 <= i < |s|
        ensures s[i] in r
      {
        if s[i] != s[0] {
          assert s[i] == s[1..][i - 1] && s[i] in s[1..];
          assert s[i] in w;
          var k :| 0 <= k < |w| && w[k] == s[i];
          assert w[k] in Distinct(w);
        }
      }
    }
  }

  /** Distinct repeats nothing. */
  lemma {:induction false} DistinctUnique<T(!new)>(s: seq<T>)
    ensures Unique(Distinct(s))
    decreases |s|
  {
    if s != [] {
      var w := Without(s[1..], s[0]);
      DistinctUnique(w);
      DistinctMembers(w);
      var rest := Distinct(w);
      assert forall i :: 0 <= i < |rest| ==> rest[i] in w;
      UniqueAppend([s[0]], rest);
    }
  }

  /** Distinct lists the elements in the order of their first occurrence in s. */
  lemma {:induction false} DistinctFirstOccurrenceOrder<T(!new)>(s: seq<T>)
    ensures forall i, j :: 0 <= i < j < |Distinct(s)| ==>
      FindIndex(s, Distinct(s)[i]) < FindIndex(s, Distinct(s)[j])
  {
    forall i, j | 0 <= i < j < |Distinct(s)|
      ensures FindIndex(s, Distinct(s)[i]) < FindIndex(s, Distinct(s)[j])
    {
      DistinctPairOrder(s, i, j);
    }
  }

  /** The keys at positions i < j of Distinct(s) are first found in s in that order. */
  lemma {:induction false} DistinctPairOrder<T(!new)>(s: seq<T>, i: nat, j: nat)
    requires i < j < |Distinct(s)|
    ensures FindIndex(s, Distinct(s)[i]) < FindIndex(s, Distinct(s)[j])
    decreases |s|, 1
  {
    if i == 0 {
      DistinctShift(s, j);
      HeadFoundFirst(s, Distinct(s)[j]);
    } else {
      DistinctTailPair(s, i, j);
    }
  }

  /** Two keys after the first: their order carries over from the keys of the rest. */
  lemma {:induction false} DistinctTailPair<T(!new)>(s: seq<T>, i: nat, j: nat)
    requires 0 < i < j < |Distinct(s)|
    ensures FindIndex(s, Distinct(s)[i]) < FindIndex(s, Distinct(s)[j])
    decreases |s|, 0
  {
    DistinctShift(s, j);
    DistinctPairOrder(Without(s[1..], s[0]), i - 1, j - 1);
    ShiftedOrderLifts(s, i, j);
  }

  /** The order of two keys of the rest without the head's value lifts to the keys one place later in Distinct(s). */
  lemma ShiftedOrderLifts<T(!new)>(s: seq<T>, i: nat, j: nat)
    requires 0 < i < j < |Distinct(s)|
    requires s != [] && |Distinct(Without(s[1..], s[0]))| == |Distinct(s)| - 1
    requires FindIndex(Without(s[1..], s[0]), Distinct(Without(s[1..], s[0]))[i - 1])
           < FindIndex(Without(s[1..], s[0]), Distinct(Without(s[1..], s[0]))[j - 1])
    ensures FindIndex(s, Distinct(s)[i]) < FindIndex(s, Distinct(s)[j])
  {
    DistinctShift(s, i);
    DistinctShift(s, j);
    TailOrderLifts(s, Distinct(s)[i], Distinct(s)[j]);
  }

  /** The key at position k > 0 is the key at k - 1 of the rest without the head's value. */
  lemma DistinctShift<T(!new)>(s: seq<T>, k: nat)
    requires 0 < k < |Distinct(s)|
    ensures s != [] && |Distinct(Without(s[1..], s[0]))| == |Distinct(s)| - 1
    ensures Distinct(s)[k] == Distinct(Without(s[1..], s[0]))[k - 1]
    ensures Distinct(s)[k] in Without(s[1..], s[0])
  {
    var w := Without(s[1..], s[0]);
    assert Distinct(s) == [s[0]] + Distinct(w);
    DistinctMembers(w);
  }

  /** The head of s is found before any element left after dropping the head's value from the tail. */
  lemma HeadFoundFirst<T(!new)>(s: seq<T>, b: T)
    requires s != [] && b in Without(s[1..], s[0])
    ensures FindIndex(s, s[0]) < FindIndex(s, b)
  {
    FindIndexPastHead(s, b);
    assert FindIndex(s, s[0]) == 0;
  }

  /** Order by first occurrence in the tail without the head's value carries over to s. */
  lemma TailOrderLifts<T(!new)>(s: seq<T>, a: T, b: T)
    requires s != []
    requires a in Without(s[1..], s[0]) && b in Without(s[1..], s[0])
    requires FindIndex(Without(s[1..], s[0]), a) < FindIndex(Without(s[1..], s[0]), b)
    ensures FindIndex(s, a) < FindIndex(s, b)
  {
    FindIndexPastHead(s, a);
    FindIndexPastHead(s, b);
    WithoutKeepsOrder(s[1..], s[0], a, b);
  }

  /** An element left after dropping the head's value from the tail is first found one place later than in the tail. */
  lemma FindIndexPastHead<T(!new)>(s: seq<T>, a: T)
    requires s != [] && a in Without(s[1..], s[0])
    ensures 0 <= FindIndex(s[1..], a) && FindIndex(s, a) == FindIndex(s[1..], a) + 1
  {
    var w := Without(s[1..], s[0]);
    var k :| 0 <= k < |w| && w[k] == a;
    assert a in s[1..] && a != s[0];
  }

  /** A sequence without repetitions is its own key order. */
  lemma {:induction false} DistinctOfUnique<T(!new)>(s: seq<T>)
    requires Unique(s)
    ensures Distinct(s) == s
    decreases |s|
  {
    if s != [] {
      WithoutAbsent(s[1..], s[0]);
      DistinctOfUnique(s[1..]);
    }
  }

  lemma {:induction false} WithoutAbsent<T(!new)>(s: seq<T>, v: T)
    requires v !in s
    ensures Without(s, v) == s
    decreases |s|
  {
    if s != [] {
      WithoutAbsent(s[1..], v);
    }
  }

  /** Two repetition-free sequences with no common element concatenate to one. */
  lemma UniqueAppend<T>(a: seq<T>, b: seq<T>)
    requires Unique(a) && Unique(b)
    requires forall e :: e in a ==> e !in b
    ensures Unique(a + b)
  {
    var ab := a + b;
    forall i, j | 0 <= i < j < |ab|
      ensures ab[i] != ab[j]
    {
      if j < |a| {
        assert ab[i] == a[i] && ab[j] == a[j];
      } else if i >= |a| {
        assert ab[i] == b[i - |a|] && ab[j] == b[j - |a|];
      } else {
        assert ab[i] == a[i] && ab[j] == b[j - |a|];
        assert a[i] in a;
      }
    }
  }
}

=== FILE: sorting.dfy ===
/**
  `_sortBy(points, d => d.x)`: a stable sort of a series by abscissa,
  modelled as an insertion sort.
 */
module Sorting {
  import opened ChartTypes
  import opened Seqs

  /** Abscissae never decrease along s. */
  predicate SortedByX(s: seq<Point>)
  {
    forall i, j :: 0 <= i < j < |s| ==> s[i].x <= s[j].x
  }

  /** Abscissae strictly increase along s. */
  predicate StrictlyAscending(s: seq<Point>)
  {
    forall i, j :: 0 <= i < j < |s| ==> s[i].x < s[j].x
  }

  /** p lies at an abscissa no point of s has. */
  predicate FreshX(p: Point, s: seq<Point>)
  {
    forall i :: 0 <= i < |s| ==> s[i].x != p.x
  }

  /** Inserts p before the first point whose abscissa is not below p's. */
  function InsertByX(p: Point, s: seq<Point>): (r: seq<Point>)
    requires SortedByX(s)
    ensures SortedByX(r)
    ensures multiset(r) == multiset(s) + multiset{p}
  {
    if s == [] then [p]
    else if p.x <= s[0].x then [p] + s
    else
      var head, tail := s[0], s[1..];
      var rest := InsertByX(p, tail);
      assert s == [head] + tail;
      BoundKept(head, p, tail, rest);
      [head] + rest
  }

  /** A lower bound of p and of every point of tail bounds every point of a permutation of them. */
  lemma BoundKept(head: Point, p: Point, tail: seq<Point>, rest: seq<Point>)
    requires head.x <= p.x
    requires forall k :: 0 <= k < |tail| ==> head.x <= tail[k].x
    requires multiset(rest) == multiset(tail) + multiset{p}
    ensures forall k :: 0 <= k < |rest| ==> head.x <= rest[k].x
  {
    forall k | 0 <= k < |rest|
      ensures head.x <= rest[k].x
    {
      assert rest[k] in multiset(rest);
      if rest[k] != p {
        assert rest[k] in multiset(tail);
        assert rest[k] in tail;
      }
    }
  }

  /** Inserting at a fresh abscissa into a strictly ascending series keeps it strictly ascending. */
  lemma {:induction false} InsertByXStrict(p: Point, s: seq<Point>)
    requires StrictlyAscending(s)
    requires FreshX(p, s)
    ensures StrictlyAscending(InsertByX(p, s))
    decreases |s|
  {
    if s != [] && p.x > s[0].x {
      var rest := InsertByX(p, s[1..]);
      InsertByXStrict(p, s[1..]);
      assert s == [s[0]] + s[1..];
      forall k | 0 <= k < |rest|
        ensures s[0].x < rest[k].x
      {
        assert rest[k] in multiset(rest);
        if rest[k] != p {
          assert rest[k] in multiset(s[1..]);
          assert rest[k] in s[1..];
        }
      }
      assert InsertByX(p, s) == [s[0]] + rest;
    }
  }

  /** The points of s reordered by non-decreasing abscissa. */
  function SortByX(s: seq<Point>): (r: seq<Point>)
    ensures SortedByX(r)
    ensures multiset(r) == multiset(s)
    ensures |r| == |s|
  {
    if s == [] then []
    else
      assert s == [s[0]] + s[1..];
      InsertByX(s[0], SortByX(s[1..]))
  }

  /** Points at pairwise different abscissae sort into a strictly ascending series. */
  lemma {:induction false} SortByXStrict(s: seq<Point>)
    requires Unique(Xs(s))
    ensures StrictlyAscending(SortByX(s))
    decreases |s|
  {
    if s != [] {
      var t := s[1..];
      assert Xs(t) == Xs(s)[1..];
      SortByXStrict(t);
      var st := SortByX(t);
      forall k | 0 <= k < |st|
        ensures st[k].x != s[0].x
      {
        assert st[k] in multiset(st);
        assert st[k] in t;
        var m :| 0 <= m < |t| && t[m] == st[k];
        assert Xs(s)[m + 1] == t[m].x;
        assert Xs(s)[0] == s[0].x;
      }
      InsertByXStrict(s[0], st);
    }
  }
}

=== FILE: text.dfy ===
/**
  The string operations the series builder uses: `includes`, `replace` with a
  string pattern (first occurrence only), and the decimal rendering of a
  natural number inside a template literal.
 */
module Text {

  /** pat occurs in s starting at position i. */
  predicate OccursAt(s: string, pat: string, i: int)
  {
    0 <= i && i + |pat| <= |s| && s[i..i + |pat|] == pat
  }

  /** `s.indexOf(pat)`: the first position where pat occurs, or -1. */
  function IndexOf(s: string, pat: string): (i: int)
    ensures i == -1 || OccursAt(s, pat, i)
    ensures i == -1 ==> forall j :: !OccursAt(s, pat, j)
    ensures forall j :: 0 <= j < i ==> !OccursAt(s, pat, j)
  {
    IndexOfFrom(s, pat, 0)
  }

  function IndexOfFrom(s: string, pat: string, from: nat): (i: int)
    requires forall j :: 0 <= j < from ==> !OccursAt(s, pat, j)
    ensures i == -1 || (from <= i && OccursAt(s, pat, i))
    ensures i == -1 ==> forall j :: !OccursAt(s, pat, j)
    ensures forall j :: 0 <= j < i ==> !OccursAt(s, pat, j)
    decreases |s| + 1 - from
  {
    if from + |pat| > |s| then -1
    else if s[from..from + |pat|] == pat then from
    else IndexOfFrom(s, pat, from + 1)
  }

  /** `s.includes(pat)` */
  function Contains(s: string, pat: string): (b: bool)
    ensures b <==> exists j :: OccursAt(s, pat, j)
  {
    IndexOf(s, pat) >= 0
  }

  /** `s.replace(pat, rep)`: only the first occurrence of pat is replaced. */
  function ReplaceFirst(s: string, pat: string, rep: string): (r: string)
    ensures (forall j :: !OccursAt(s, pat, j)) ==> r == s
    ensures forall i :: OccursAt(s, pat, i) && (forall j :: 0 <= j < i ==> !OccursAt(s, pat, j)) ==>
      r == s[..i] + rep + s[i + |pat|..]
  {
    var i := IndexOf(s, pat);
    if i < 0 then s else s[..i] + rep + s[i + |pat|..]
  }

  /** `field.replace(' Min', '').replace(' Max', '')` */
  function StripMinMax(field: string): (r: string)
    ensures (forall i :: !OccursAt(field, " Min", i)) && (forall i :: !OccursAt(field, " Max", i)) ==> r == field
  {
    ReplaceFirst(ReplaceFirst(field, " Min", ""), " Max", "")
  }

  /** An occurrence in s + marker that ends inside s is an occurrence in s. */
  lemma OccursInPrefix(s: string, marker: string, pat: string, j: int)
    requires OccursAt(s + marker, pat, j)
    requires j + |pat| <= |s|
    ensures OccursAt(s, pat, j)
  {
    assert (s + marker)[j..j + |pat|] == s[j..j + |pat|];
  }

  /** A pattern with no space after its first character cannot cover the space that starts marker. */
  lemma NoStraddle(s: string, marker: string, pat: string, j: int)
    requires |marker| > 0 && marker[0] == ' '
    requires |pat| > 0 && ' ' !in pat[1..]
    requires OccursAt(s + marker, pat, j)
    requires j < |s|
    ensures j + |pat| <= |s|
  {
    var t := s + marker;
    assert t[|s|] == ' ';
    forall k | j < k < j + |pat|
      ensures t[k] != ' '
    {
      assert t[k] == pat[k - j] == pat[1..][k - j - 1];
    }
  }

  /** In s + marker, a marker-like pattern absent from s can only match at the end. */
  lemma MarkerOnlyAtEnd(s: string, marker: string, pat: string, j: int)
    requires |marker| == 4 && marker[0] == ' '
    requires |pat| == 4 && ' ' !in pat[1..]
    requires forall i :: !OccursAt(s, pat, i)
    requires OccursAt(s + marker, pat, j)
    ensures j == |s| && pat == marker
  {
    if j < |s| {
      NoStraddle(s, marker, pat, j);
      OccursInPrefix(s, marker, pat, j);
    }
    assert (s + marker)[j..j + 4] == marker;
  }

  /** The base field of a Min or Max variant is recovered by stripping the marker. */
  lemma StripMinMaxOfVariant(field: string, marker: string)
    requires marker == " Min" || marker == " Max"
    requires forall i :: !OccursAt(field, " Min", i)
    requires forall i :: !OccursAt(field, " Max", i)
    ensures StripMinMax(field + marker) == field
  {
    if marker == " Min" {
      StripOfMinVariant(field);
    } else {
      StripOfMaxVariant(field);
    }
  }

  /** Replacing the first occurrence of marker in field + marker, when field holds none, gives field back. */
  lemma ReplaceAppendedMarker(field: string, marker: string)
    requires |marker| == 4 && marker[0] == ' ' && ' ' !in marker[1..]
    requires forall i :: !OccursAt(field, marker, i)
    ensures ReplaceFirst(field + marker, marker, "") == field
  {
    var t := field + marker;
    assert OccursAt(t, marker, |field|) by {
      assert t[|field|..|field| + 4] == marker;
    }
    forall j | 0 <= j < |field|
      ensures !OccursAt(t, marker, j)
    {
      if OccursAt(t, marker, j) {
        MarkerOnlyAtEnd(field, marker, marker, j);
      }
    }
    assert t[..|field|] == field;
    assert t[|field| + 4..] == [];
  }

  lemma StripOfMinVariant(field: string)
    requires forall i :: !OccursAt(field, " Min", i)
    requires forall i :: !OccursAt(field, " Max", i)
    ensures StripMinMax(field + " Min") == field
  {
    ReplaceAppendedMarker(field, " Min");
  }

  lemma StripOfMaxVariant(field: string)
    requires forall i :: !OccursAt(field, " Min", i)
    requires forall i :: !OccursAt(field, " Max", i)
    ensures StripMinMax(field + " Max") == field
  {
    var t := field + " Max";
    forall j | true
      ensures !OccursAt(t, " Min", j)
    {
      if OccursAt(t, " Min", j) {
        MarkerOnlyAtEnd(field, " Max", " Min", j);
      }
    }
    ReplaceAppendedMarker(field, " Max");
  }

  /** A field with neither marker is its own base field. */
  lemma StripMinMaxOfPlain(field: string)
    requires forall i :: !OccursAt(field, " Min", i)
    requires forall i :: !OccursAt(field, " Max", i)
    ensures StripMinMax(field) == field
  {
  }

  function DigitChar(d: nat): (c: char)
    requires d < 10
    ensures '0' <= c <= '9'
  {
    "0123456789"[d]
  }

  function DigitValue(c: char): nat
    requires '0' <= c <= '9'
  {
    (c as int - '0' as int) as nat
  }

  predicate IsDigits(s: string)
  {
    forall i :: 0 <= i < |s| ==> '0' <= s[i] <= '9'
  }

  /** The number a string of decimal digits denotes. */
  function DecimalValue(s: string): nat
    requires IsDigits(s)
  {
    if s == [] then 0 else DecimalValue(s[..|s| - 1]) * 10 + DigitValue(s[|s| - 1])
  }

  /** `${n}` for a natural number: its decimal digits, without leading zeros. */
  function NatToString(n: nat): (s: string)
    ensures |s| > 0 && IsDigits(s)
    ensures |s| > 1 ==> s[0] != '0'
  {
    if n < 10 then [DigitChar(n)] else NatToString(n / 10) + [DigitChar(n % 10)]
  }

  /** Reading the rendered digits back gives the number. */
  lemma {:induction false} NatToStringRoundTrip(n: nat)
    ensures DecimalValue(NatToString(n)) == n
    decreases n
  {
    var s := NatToString(n);
    if n < 10 {
      assert s[..0] == [];
      assert DigitValue(DigitChar(n)) == n;
    } else {
      NatToStringRoundTrip(n / 10);
      assert s[..|s| - 1] == NatToString(n / 10);
      assert DigitValue(DigitChar(n % 10)) == n % 10;
    }
  }

  /** Different numbers render differently. */
  lemma NatToStringInjective(m: nat, n: nat)
    requires NatToString(m) == NatToString(n)
    ensures m == n
  {
    NatToStringRoundTrip(m);
    NatToStringRoundTrip(n);
  }
}

=== FILE: types.dfy ===
/**
  The records the chart pipeline works on. JavaScript numbers are modelled
  as exact reals; a colour is the pair (palette index, palette variant) that
  the chart would look up in its material colour table.
 */
module ChartTypes {

  /** One chart point `{x, y}`. */
  datatype Point = Point(x: real, y: real)

  /** The palette entry a series is drawn with: `colorsMaterial[index].palette[variant]`. */
  datatype Color = Color(index: int, variant: nat)

  /** One line of the chart: `{id, data, color}`. */
  datatype Series = Series(id: string, points: seq<Point>, color: Color)

  /** A scalar file attribute: its numeric value and its string rendering. */
  datatype Scalar = Scalar(num: real, text: string)

  /** A loaded measurement file. */
  datatype FileRecord = FileRecord(
    name: string,
    values: map<string, seq<real>>,
    attrs: map<string, Scalar>)

  /** The selection the chart is drawn for. `groupBy == ""` means "not grouped". */
  datatype Config = Config(
    selectedFiles: seq<string>,
    selectedFields: seq<string>,
    sortBy: string,
    groupBy: string,
    min: bool,
    max: bool,
    scale: bool,
    interpolate: bool)

  /** What the pipeline hands to the renderer. */
  datatype ChartProps = ChartProps(data: seq<Series>, tickValues: seq<real>, large: bool)

  /** The value JavaScript reads for a missing attribute, as far as this model sees it. */
  const Undefined := Scalar(0.0, "undefined")

  /** `file[key]` */
  function AttrOf(file: FileRecord, key: string): (a: Scalar)
    ensures key in file.attrs ==> a == file.attrs[key]
    ensures key !in file.attrs ==> a == Undefined
  {
    if key in file.attrs then file.attrs[key] else Undefined
  }

  /** `get(file, ['values', field], [])` */
  function ValuesOf(file: FileRecord, field: string): (vs: seq<real>)
    ensures field in file.values ==> vs == file.values[field]
    ensures field !in file.values ==> vs == []
  {
    if field in file.values then file.values[field] else []
  }

  /** The ids of a sequence of series, in order. */
  function Ids(data: seq<Series>): (ids: seq<string>)
    ensures |ids| == |data|
    ensures forall i :: 0 <= i < |data| ==> ids[i] == data[i].id
  {
    if data == [] then [] else [data[0].id] + Ids(data[1..])
  }

  /** The x coordinates of a sequence of points, in order. */
  function Xs(s: seq<Point>): (xs: seq<real>)
    ensures |xs| == |s|
    ensures forall i :: 0 <= i < |s| ==> xs[i] == s[i].x
  {
    if s == [] then [] else [s[0].x] + Xs(s[1..])
  }

  /** The y coordinates of a sequence of points, in order. */
  function Ys(s: seq<Point>): (ys: seq<real>)
    ensures |ys| == |s|
    ensures forall i :: 0 <= i < |s| ==> ys[i] == s[i].y
  {
    if s == [] then [] else [s[0].y] + Ys(s[1..])
  }

  lemma {:induction false} IdsAppend(a: seq<Series>, b: seq<Series>)
    ensures Ids(a + b) == Ids(a) + Ids(b)
  {
    var l := Ids(a + b);
    var r := Ids(a) + Ids(b);
    assert |l| == |r|;
    forall i | 0 <= i < |l|
      ensures l[i] == r[i]
    {
      if i < |a| {
        assert (a + b)[i] == a[i];
      } else {
        assert (a + b)[i] == b[i - |a|];
      }
    }
  }
}

=== FILE: ungrouped.dfy ===
/**
  The ungrouped mode of the series builder (`groupBy` unset): every selected
  file, in loaded order, and every selected field emit a Min series, a Max
  series and the primary series. Min and Max are emitted only when flagged and
  non-empty. The x of each point is the 1-based sample index.
 */
module Ungrouped {
  import opened ChartTypes
  import opened Seqs
  import opened Text
  import opened Selection

  /** Abscissae run 1, 2, 3, ... along the series. */
  predicate OneBased(ps: seq<Point>)
  {
    forall k :: 0 <= k < |ps| ==> ps[k].x == (k + 1) as real
  }

  /** `samples.map((y, x) => ({x: x + start, y}))` */
  function IndexedFrom(samples: seq<real>, start: int): (ps: seq<Point>)
    ensures |ps| == |samples|
    ensures forall k :: 0 <= k < |samples| ==> ps[k] == Point((start + k) as real, samples[k])
  {
    if samples == [] then []
    else [Point(start as real, samples[0])] + IndexedFrom(samples[1..], start + 1)
  }

  /** `samples.map((y, x) => ({x: x + 1, y: parseFloat(y)}))`, samples being numbers already. */
  function Indexed(samples: seq<real>): (ps: seq<Point>)
    ensures OneBased(ps)
  {
    IndexedFrom(samples, 1)
  }

  /** The samples can be read back from an indexed series: nothing is lost or reordered. */
  lemma IndexedYs(samples: seq<real>)
    ensures Ys(Indexed(samples)) == samples
  {
  }

  /** `${field} - #${position} [${sortBy}: ${value}]`, the large-mode id before its suffix. */
  function LargeLabel(field: string, position: nat, sortBy: string, value: string): string
  {
    field + " - #" + NatToString(position) + " [" + sortBy + ": " + value + "]"
  }

  /** The id stem of a (file, field) pair: the bare field, or the large label. */
  function Stem(file: FileRecord, field: string, cfg: Config): (r: string)
    ensures !Large(cfg) ==> r == field
    ensures |field| <= |r| && r[..|field|] == field
  {
    if !Large(cfg) then field
    else
      var position := FindIndex(cfg.selectedFiles, file.name) + 1;
      var named := LargeLabel(field, position, cfg.sortBy, AttrOf(file, cfg.sortBy).text);
      assert named == field + (" - #" + NatToString(position) + " [" + cfg.sortBy + ": " + AttrOf(file, cfg.sortBy).text + "]");
      named
  }

  /**
    In large mode the stem names the file by its 1-based position k + 1 in the
    selection, where k is the first selected name equal to the file's.
   */
  lemma StemLarge(file: FileRecord, field: string, cfg: Config, k: nat)
    requires Large(cfg)
    requires k < |cfg.selectedFiles| && cfg.selectedFiles[k] == file.name
    requires file.name !in cfg.selectedFiles[..k]
    ensures Stem(file, field, cfg) ==
      field + " - #" + NatToString(k + 1) + " [" + cfg.sortBy + ": " + AttrOf(file, cfg.sortBy).text + "]"
  {
    forall j | 0 <= j < k
      ensures cfg.selectedFiles[j] != file.name
    {
      assert cfg.selectedFiles[..k][j] == cfg.selectedFiles[j];
    }
    assert file.name in cfg.selectedFiles;
  }

  /** The palette index: the field index with one selected file, else the file's selection index. */
  function PaletteIndex(file: FileRecord, fieldIndex: nat, cfg: Config): (r: int)
    ensures |cfg.selectedFiles| == 1 ==> r == fieldIndex
    ensures |cfg.selectedFiles| != 1 ==> (r == -1 <==> file.name !in cfg.selectedFiles)
    ensures |cfg.selectedFiles| != 1 && r >= 0 ==> r < |cfg.selectedFiles| && cfg.selectedFiles[r] == file.name
  {
    if |cfg.selectedFiles| == 1 then fieldIndex else FindIndex(cfg.selectedFiles, file.name)
  }

  /** `min ? get(file, ['values', `${field} Min`], []) : []` */
  function MinValues(file: FileRecord, field: string, cfg: Config): seq<real>
  {
    if cfg.min then ValuesOf(file, field + " Min") else []
  }

  /** `max ? get(file, ['values', `${field} Max`], []) : []` */
  function MaxValues(file: FileRecord, field: string, cfg: Config): seq<real>
  {
    if cfg.max then ValuesOf(file, field + " Max") else []
  }

  /** The suffixes of the series a pair emits, in emission order: " Min", " Max", then "". */
  function Suffixes(file: FileRecord, field: string, cfg: Config): seq<string>
  {
    (if |MinValues(file, field, cfg)| > 0 then [" Min"] else [])
    + (if |MaxValues(file, field, cfg)| > 0 then [" Max"] else [])
    + [""]
  }

  /**
    The series of one file and the field at index j: each has the stem plus
    its suffix as id, the samples stored under field plus suffix as points,
    and palette variant 1 for Min/Max and 6 for the primary.
   */
  function PairSeries(file: FileRecord, j: nat, cfg: Config): (r: seq<Series>)
    requires j < |cfg.selectedFields|
    ensures var field := cfg.selectedFields[j];
      var sfx := Suffixes(file, field, cfg);
      && |r| == |sfx|
      && forall i :: 0 <= i < |r| ==>
        && r[i].id == Stem(file, field, cfg) + sfx[i]
        && r[i].points == Indexed(ValuesOf(file, field + sfx[i]))
        && r[i].color == Color(PaletteIndex(file, j, cfg), if sfx[i] == "" then 6 else 1)
    ensures WellShaped(r)
    ensures |r| >= 1
  {
    var field := cfg.selectedFields[j];
    var stem := Stem(file, field, cfg);
    var index := PaletteIndex(file, j, cfg);
    var minValues := MinValues(file, field, cfg);
    var maxValues := MaxValues(file, field, cfg);
    var minSeries := if |minValues| > 0 then [Series(stem + " Min", Indexed(minValues), Color(index, 1))] else [];
    var maxSeries := if |maxValues| > 0 then [Series(stem + " Max", Indexed(maxValues), Color(index, 1))] else [];
    assert field + "" == field;
    minSeries + maxSeries + [Series(stem, Indexed(ValuesOf(file, field)), Color(index, 6))]
  }

  /** How many series a pair emits: the primary one, plus one for each requested, non-empty Min and Max list. */
  function PairCount(file: FileRecord, field: string, cfg: Config): nat
  {
    1 + (if cfg.min && |ValuesOf(file, field + " Min")| > 0 then 1 else 0)
      + (if cfg.max && |ValuesOf(file, field + " Max")| > 0 then 1 else 0)
  }

  /** How many series one file emits over the given fields. */
  function FieldsCount(file: FileRecord, fields: seq<string>, cfg: Config): nat
  {
    if fields == [] then 0 else PairCount(file, fields[0], cfg) + FieldsCount(file, fields[1..], cfg)
  }

  /** How many series the given files emit over the selected fields. */
  function SeriesCount(files: seq<FileRecord>, cfg: Config): nat
  {
    if files == [] then 0 else FieldsCount(files[0], cfg.selectedFields, cfg) + SeriesCount(files[1..], cfg)
  }

  /** Every series is one-based and drawn in variant 1 or 6. */
  predicate WellShaped(r: seq<Series>)
  {
    forall i :: 0 <= i < |r| ==> OneBased(r[i].points) && (r[i].color.variant == 1 || r[i].color.variant == 6)
  }

  lemma ConcatShape(a: seq<Series>, b: seq<Series>)
    requires WellShaped(a) && WellShaped(b)
    ensures WellShaped(a + b)
  {
    forall i | 0 <= i < |a + b|
      ensures OneBased((a + b)[i].points) && ((a + b)[i].color.variant == 1 || (a + b)[i].color.variant == 6)
    {
      if i < |a| { assert (a + b)[i] == a[i]; } else { assert (a + b)[i] == b[i - |a|]; }
    }
  }

  /** The series of one file for the fields from index j on. */
  function FileSeriesFrom(file: FileRecord, j: nat, cfg: Config): (r: seq<Series>)
    requires j <= |cfg.selectedFields|
    ensures WellShaped(r)
    ensures |r| >= |cfg.selectedFields| - j
    ensures |r| == FieldsCount(file, cfg.selectedFields[j..], cfg)
    decreases |cfg.selectedFields| - j
  {
    if j == |cfg.selectedFields| then []
    else
      var here := PairSeries(file, j, cfg);
      var rest := FileSeriesFrom(file, j + 1, cfg);
      ConcatShape(here, rest);
      PairSeriesCount(file, j, cfg);
      assert cfg.selectedFields[j..][1..] == cfg.selectedFields[j + 1..];
      here + rest
  }

  /** The series of the given files, file after file. */
  function UngroupedFrom(files: seq<FileRecord>, cfg: Config): (r: seq<Series>)
    ensures WellShaped(r)
    ensures |r| == SeriesCount(files, cfg)
  {
    if files == [] then []
    else
      var here := FileSeriesFrom(files[0], 0, cfg);
      var rest := UngroupedFrom(files[1..], cfg);
      ConcatShape(here, rest);
      assert cfg.selectedFields[0..] == cfg.selectedFields;
      here + rest
  }

  /** Files are visited one after the other in the order given. */
  lemma {:induction false} UngroupedFromAppend(a: seq<FileRecord>, b: seq<FileRecord>, cfg: Config)
    ensures UngroupedFrom(a + b, cfg) == UngroupedFrom(a, cfg) + UngroupedFrom(b, cfg)
    decreases |a|
  {
    if a == [] {
      assert a + b == b;
    } else {
      assert (a + b)[1..] == a[1..] + b;
      UngroupedFromAppend(a[1..], b, cfg);
    }
  }

  /** The ungrouped series builder. */
  function BuildUngrouped(files: seq<FileRecord>, cfg: Config): (r: seq<Series>)
    ensures WellShaped(r)
    ensures |r| == SeriesCount(FilterSelected(files, cfg.selectedFiles), cfg)
  {
    UngroupedFrom(FilterSelected(files, cfg.selectedFiles), cfg)
  }

  /**
    The builder follows the loaded order, not the selection order: the series
    of two selected files come in the order the files were loaded.
   */
  lemma BuildUngroupedFollowsLoadedOrder(a: FileRecord, b: FileRecord, cfg: Config)
    requires a.name in cfg.selectedFiles && b.name in cfg.selectedFiles
    ensures BuildUngrouped([a, b], cfg) == FileSeriesFrom(a, 0, cfg) + FileSeriesFrom(b, 0, cfg)
  {
    assert FilterSelected([a, b], cfg.selectedFiles) == [a, b];
    UngroupedFromOne(a, cfg);
    UngroupedFromOne(b, cfg);
    assert [a] + [b] == [a, b];
    UngroupedFromAppend([a], [b], cfg);
  }

  /** A single file contributes exactly its own series. */
  lemma UngroupedFromOne(file: FileRecord, cfg: Config)
    ensures UngroupedFrom([file], cfg) == FileSeriesFrom(file, 0, cfg)
  {
    assert [file][1..] == [];
    assert UngroupedFrom([file], cfg) == FileSeriesFrom(file, 0, cfg) + [];
  }

  /**
    A pair always emits its primary series, last, in variant 6; it emits one
    more series for each of Min and Max that is both requested and non-empty.
   */
  lemma PairSeriesCount(file: FileRecord, j: nat, cfg: Config)
    requires j < |cfg.selectedFields|
    ensures var f := cfg.selectedFields[j];
      var r := PairSeries(file, j, cfg);
      && |r| == 1 + (if cfg.min && |ValuesOf(file, f + " Min")| > 0 then 1 else 0)
                  + (if cfg.max && |ValuesOf(file, f + " Max")| > 0 then 1 else 0)
      && r[|r| - 1] == Series(Stem(file, f, cfg), Indexed(ValuesOf(file, f)), Color(PaletteIndex(file, j, cfg), 6))
  {
    var f := cfg.selectedFields[j];
    assert f + "" == f;
  }

  /** Outside large mode an id is a selected field, possibly followed by " Min" or " Max". */
  lemma {:induction false} SmallModeIds(file: FileRecord, j: nat, cfg: Config)
    requires !Large(cfg)
    requires j < |cfg.selectedFields|
    ensures var f := cfg.selectedFields[j];
      forall s :: s in PairSeries(file, j, cfg) ==> s.id == f || s.id == f + " Min" || s.id == f + " Max"
  {
  }

  /**
    Ids can repeat even when no name contains " - #": with one selected file
    and the fields f and `f Min`, the Min series of f and the primary series
    of `f Min` are both called `f Min`.
   */
  lemma UngroupedIdsCanRepeat(file: FileRecord, f: string, cfg: Config)
    requires cfg.selectedFiles == [file.name] && cfg.min
    requires cfg.selectedFields == [f, f + " Min"]
    requires |ValuesOf(file, f + " Min")| > 0
    ensures var r := BuildUngrouped([file], cfg);
      |r| >= 2 && r[0].id == f + " Min" && r[|r| - 1].id == f + " Min"
  {
    var here := PairSeries(file, 0, cfg);
    var next := PairSeries(file, 1, cfg);
    assert FilterSelected([file], cfg.selectedFiles) == [file];
    assert [file][1..] == [];
    assert FileSeriesFrom(file, 2, cfg) == [];
    assert FileSeriesFrom(file, 1, cfg) == next + [];
    assert FileSeriesFrom(file, 0, cfg) == here + next;
    assert UngroupedFrom([file], cfg) == FileSeriesFrom(file, 0, cfg) + [];
    assert BuildUngrouped([file], cfg) == here + next;
    assert Suffixes(file, f, cfg)[0] == " Min";
    assert (f + " Min") + "" == f + " Min";
  }
}
